=== FILE: README.md ===
# Portfolio head tags and navigation bar, modelled in Dafny

This project models two parts of a personal portfolio site:

- **The head-tag builder** (`src/lib/seo.ts`). `getRootSeo` builds the site-wide `<head>` records. `getBlogPostSeo` builds those of one blog post. `absoluteUrl` makes a path absolute against the site URL. A page's head is three ordered lists: meta, link and script records. The JSON-LD script is a typed `JsonLd` value. An absent (`None`) field of it is a key that serialisation drops.
- **The navigation bar's controller** (`src/components/layout/navbar.tsx`). The model keeps:
  - the menu-open flag;
  - the viewport mode: mobile below 1024px;
  - the elevated flag;
  - the icon, panel and navbar timelines, each a handle that is either played or reversed;
  - the desktop scroll trigger;
  - the document listeners.

  The state is one record, with one transition function per event: toggle, navigate, outside click/touch, resize, scroll, unmount.

Modules:

- `Optional` (optional.dfy): the `Option` type.
- `JsString` (js_string.dfy): ECMAScript `trim`, `startsWith` and `join` over code points.
- `Seo` (seo.dfy): the records and builders of `seo.ts`.
- `SeoProperties` (seo_properties.dfy): lemmas relating several calls.
- `Navbar` (navbar.dfy): state, effects and events of the controller.
- `NavbarProperties` (navbar_properties.dfy): the invariant and what holds across event sequences.

Foreign code appears as a parameter:

- The WHATWG URL parser behind `new URL(path, SITE_URL)` is a `UrlResolver = string -> string`.
- `new Date(input)` with its NaN test and `toISOString()` is a `DateParser = string -> Option<string>`.

Statements about these hold for every resolver and parser, with two exceptions. AbsoluteUrlIdempotent and BlogUrlsAreHttp assume only that a site-rooted path (one starting with "/") resolves to an http(s) URL. The WHATWG parser does this against the https site URL, and nothing is assumed about other inputs.

Modelling choices in the navigation bar:

- Window width, scroll position and DOM containment are event inputs.
- A Lenis `scrollTo` call is recorded by appending its target to `scrollRequests`.
- Timelines and triggers are ownership handles drawn from a counter. The `Runtime` records which handles are alive and which way each timeline points. "At most one trigger" and "killed on mode change" are therefore statements about live handles.

## Model

| member | source | states |
|---|---|---|
| JsString.Trim | src/lib/seo.ts:166 | `trim` removes exactly the leading and trailing ECMAScript white space. The result is a contiguous slice of the input, is empty exactly when the input is blank, and otherwise neither starts nor ends with white space. |
| JsString.TrimOfPadded | src/lib/seo.ts:166 | Padding a string with no white space at its ends by blank strings on both sides, then trimming, gives the string back. |
| JsString.TrimIgnoresPadding | src/lib/seo.ts:166 | Blank strings added on either side of any string do not change its trimmed form. |
| JsString.TrimIdempotent | src/lib/seo.ts:166 | Trimming twice is the same as trimming once. |
| JsString.StartsWithIsPrefix | src/lib/seo.ts:62 | `startsWith` holds exactly when the prefix is a sequence prefix of the string. |
| JsString.JoinEnds | src/lib/seo.ts:169 | A non-empty joined array opens with its first element (a sequence prefix) and closes with its last (its final characters). |
| JsString.JoinSnoc | src/lib/seo.ts:169 | Joining agrees with left-to-right accumulation: appending an element appends the separator and that element. |
| JsString.JoinLength | src/lib/seo.ts:169 | The joined string's length is the sum of the element lengths plus one separator between each pair of neighbours. |
| Seo.AbsoluteUrl | src/lib/seo.ts:60-66 | An empty path gives the site URL. A path starting with "http://" or "https://" is returned unchanged. Any other path is resolved against the site. |
| Seo.DefaultJsonLd | src/lib/seo.ts:83-108 | The site JSON-LD is a ProfessionalService. Its url and image are the ones given. Its name, description, email and sameAs profiles are the site defaults. |
| SeoProperties.KeyDeterminesRecord | src/lib/seo.ts:1-7 | A record's key fixes its shape. It has the charset key exactly when it is a bare charset record, and the title key exactly when it is a bare title record. It has `NameKey(n)` exactly when it is the `name` record for n with its content, and likewise for `PropertyKey`. |
| Seo.RootPageMeta | src/lib/seo.ts:113-121 | The nine page records are keyed, in order, by charSet, `name` viewport, title, `name` description, keywords, author and robots, then `property` og:type and og:site_name. Each record sets exactly one key attribute. Each carries its value: utf-8, the viewport setting, the default title and description, the given keywords, the author, "index,follow", "website" and the site name. |
| Seo.RootShareMeta | src/lib/seo.ts:122-136 | The nine sharing records are keyed, in order, by `property` og:url, og:title, og:description and og:image, `name` twitter:card, then `property` twitter:url, twitter:title, twitter:description and twitter:image. Each record sets exactly one key attribute. The canonical URL goes in both url records, and the default title and description and the image in both families. twitter:card is a `name` record with value summary_large_image. |
| Seo.RootMeta | src/lib/seo.ts:112-137 | There are 18 records, charset "utf-8" first. Each sets exactly one key attribute, and the keys, `name` or `property` included, follow source order. The viewport, author, robots ("index,follow"), og:type ("website") and site-name records carry their constants, and twitter:card is a `name` record with value summary_large_image. The default title is in the title record and in og:title and twitter:title. The default description is in all three description records. The given keywords are in the keywords record. The given canonical URL is in og:url and twitter:url, and the given image in og:image and twitter:image. |
| Seo.RootLinks | src/lib/seo.ts:139-145 | There are five links. The canonical link comes first, and it is the only canonical one. |
| Seo.GetRootSeo | src/lib/seo.ts:110-154 | The page has 18 meta records and 5 links, the canonical href being the resolved "/". The meta records are the root records for that href, the default image and the default keywords joined with ", ". So og:url and twitter:url carry the href, og:image and twitter:image the default image, and the keywords record the joined defaults. The only script is the `application/ld+json` ProfessionalService, whose url is the same href. |
| Seo.GetIsoDate | src/lib/seo.ts:157-162 | An ISO string is produced exactly when the input is present, non-empty and parses, and it is the parser's output. |
| Seo.BlogDescription | src/lib/seo.ts:166 | The description is the trimmed excerpt when the excerpt has a non-white-space character, and the default description otherwise. It is never empty and never starts or ends with white space. |
| Seo.BlogKeywords | src/lib/seo.ts:167-170 | With a present, non-empty tags array (blank tags included), the keywords are the tags joined with ", " and open with the first tag. Otherwise they are the default keywords joined the same way. |
| Seo.DateEntries | src/lib/seo.ts:197-202 | A dated post gets exactly two records, `article:published_time` then `article:modified_time`, both carrying the ISO value. An undated post gets none. |
| Seo.TagEntries | src/lib/seo.ts:204-208 | There is at most one entry per tag. Every entry is an `article:tag` record whose content is not blank. |
| Seo.BlogHeader | src/lib/seo.ts:173-195 | The 15 opening records each set exactly one key attribute. In order they are the title, `name` description, author and keywords, then `property` og:type through twitter:image. The first is the page title: the post title followed by BLOG_TITLE_SUFFIX (a bar, then "Portfolio Blog"). og:title and twitter:title carry the raw title. One description value fills all three description records. The canonical URL is in og:url and twitter:url, and the keywords in the keywords record. The author and site name fill their records, og:type is "article", and twitter:card is a `property` record with value summary_large_image. |
| Seo.BlogJsonLd | src/lib/seo.ts:210-236 | The page is a BlogPosting whose @id is the canonical URL and whose headline is the title. datePublished and dateModified are the same ISO value. Keywords are present exactly when the tags array is non-empty, and are then the same joined tags as the meta keywords. The image and logo are the ones given, the author is AUTHOR and the publisher is SITE_NAME. |
| Seo.BlogMeta | src/lib/seo.ts:173-208 | The header comes first. Next comes the published/modified pair, both carrying the ISO value, only when dated. The tag entries close the list. The length is the sum of the three parts. |
| Seo.GetBlogPostSeo | src/lib/seo.ts:164-247 | Meta length is 15, plus 2 when the date parses, plus the number of tag entries (BlogMetaCount turns this into the number of non-blank tags). The header, dates and tags appear in that order. The only link is canonical, with the resolved "/blog/<slug>". The only script is the BlogPosting JSON-LD, built from the same canonical URL, description, date and keywords as the meta. |
| SeoProperties.AbsoluteUrlIdempotent | src/lib/seo.ts:60-66 | Suppose the resolver turns site-rooted paths into http(s) URLs. Then for an empty path, a rooted path or an http(s) URL, the result is an http(s) URL, and making it absolute again changes nothing. |
| SeoProperties.BlogUrlsAreHttp | src/lib/seo.ts:68-69 | Under the same assumption, the blog canonical URL, the default image and the default logo are all http(s) URLs. |
| SeoProperties.RootedHypothesisAdmitsOtherSchemes | src/lib/seo.ts:65 | The assumption is consistent with a resolver that leaves an absolute URL of another scheme ("mailto:a@b") unchanged, as the WHATWG parser does. |
| SeoProperties.DescriptionIgnoresPadding | src/lib/seo.ts:166 | White space around an excerpt never changes the description. |
| SeoProperties.KeepsTagIffNotBlank | src/lib/seo.ts:205 | `tag && tag.trim().length > 0` holds exactly for non-blank tags. |
| SeoProperties.TagEntriesAppend | src/lib/seo.ts:204-208 | Tag filtering preserves input order: filtering a concatenation is concatenating the filtered parts. |
| SeoProperties.TagEntriesMembership | src/lib/seo.ts:204-208 | An `article:tag` record with content t appears exactly when t is one of the tags and is not blank. The content is the untrimmed tag. |
| SeoProperties.TagEntriesCount | src/lib/seo.ts:204-208 | There is exactly one tag entry per position holding a non-blank tag, so a repeated tag yields repeated entries. |
| SeoProperties.BlogMetaCount | src/lib/seo.ts:173-208 | A blog page has 15 header records, plus 2 when the date parses, plus one per non-blank tag. |
| SeoProperties.TagEntriesEmptyIff | src/lib/seo.ts:204-208 | No tag entry appears exactly when every tag is blank. |
| SeoProperties.BlankTagInKeywordsOnly | src/lib/seo.ts:167-208 | A blank tag added to a tagged post lengthens the keywords by a separator and the tag, but adds no `article:tag` record. |
| SeoProperties.BlogHeaderHasNoDate | src/lib/seo.ts:173-195 | None of the 15 header records is a published-time record. |
| SeoProperties.PublishedTimeIffDateParses | src/lib/seo.ts:157-221 | `article:published_time` appears in a blog page exactly when the date is present, non-empty and parses to a non-empty string. The JSON-LD datePublished is present exactly when the date parses. |
| SeoProperties.BlogValuesAgree | src/lib/seo.ts:164-244 | The canonical link, og:url, twitter:url and the JSON-LD @id all carry the resolved "/blog/<slug>". One description fills the three description records and the JSON-LD. |
| Navbar.SyncMenuTimelines | src/components/layout/navbar.tsx:145-156 | Each live icon and panel timeline is played when the menu is open and reversed when it is closed. No other timeline, no trigger and no other field changes. |
| Navbar.SetMenuOpen | src/components/layout/navbar.tsx:57-156 | Setting the menu flag to its current value changes nothing. Otherwise the flag takes the new value, the outside-click listener pair is swapped for a new one (if one of each was attached, one of each still is), and only the menu timelines are steered: each live one is played when the menu opens and reversed when it closes. |
| Navbar.OnEnter | src/components/layout/navbar.tsx:212-215 | `onEnter` elevates the bar and plays a live navbar timeline. Nothing else changes. |
| Navbar.OnLeaveBack | src/components/layout/navbar.tsx:216-219 | `onLeaveBack` lowers the bar and reverses a live navbar timeline. Nothing else changes. |
| Navbar.SetupElevation | src/components/layout/navbar.tsx:158-230 | The previous trigger and navbar timeline are always killed first: exactly the old ones die and exactly the new ones are born. Mobile: elevated, with no trigger or navbar timeline. Desktop: two distinct handles never issued before, for the timeline and the trigger. The timeline points the way the scroll side says, and elevation equals "beyond the 12px start". Every other live timeline existed before and keeps its direction. No field besides elevation, the two references and the runtime changes. |
| Navbar.Rendered | src/components/layout/navbar.tsx:24-143 | The first render is mounted, with the menu closed and no scroll requests. Mode, width and scroll side come from the inputs. Only the icon and panel timelines exist, as handles 0 and 1, both reversed. No trigger exists. |
| Navbar.TeardownElevation | src/components/layout/navbar.tsx:163-166 | After the cleanup, no trigger or navbar timeline is referenced, and exactly the referenced ones are no longer live. Surviving timelines keep their directions, no handle is issued, and no field besides the two references and the runtime changes. |
| Navbar.Mount | src/components/layout/navbar.tsx:24-220 | On mount, the mode is mobile exactly when the width is below 1024, and the menu is closed. The bar is elevated exactly when mobile or scrolled beyond 12px. Mobile has no live trigger; desktop has exactly one. |
| Navbar.Toggle | src/components/layout/navbar.tsx:311 | The toggle flips `mobileMenuOpen`. Apart from the menu timelines and the re-attached listener pair, nothing else changes. The invariant is kept. |
| Navbar.Navigate | src/components/layout/navbar.tsx:239-242 | Every item closes the menu and issues exactly one scroll request, with its own target. Nothing else changes apart from the menu timelines and listeners. |
| Navbar.OutsideInteraction | src/components/layout/navbar.tsx:57-76 | An outside click or touchend changes the menu exactly when the menu is open and the target is outside both the panel and the toggle. In every other case the state is unchanged. When it closes the menu, only the menu flag, the menu timelines and the listener pair change. |
| Navbar.Resize | src/components/layout/navbar.tsx:44-50 | After a resize, the mode is mobile exactly when the width is below 1024. Without a mode change only the width changes. On a mode change, the elevation setup re-runs: the old trigger and navbar timeline are dead and any new ones are fresh. Only the width, mode, elevation, the two elevation references and the runtime may change. The icon and panel timelines keep their handles and directions. Under the invariant, the bar is elevated exactly when the new width is mobile or the page is scrolled past the start. With no resize listener nothing changes. |
| Navbar.Scroll | src/components/layout/navbar.tsx:210-220 | On desktop, elevation after a scroll equals "beyond the start". Staying on one side fires nothing, and mobile is unaffected. A crossing changes only the recorded scroll side, the elevated flag and the navbar timeline's direction. The invariant is kept. |
| Navbar.Unmount | src/components/layout/navbar.tsx:52-237 | Unmounting removes every listener and leaves no timeline or trigger live. |
| Navbar.Step | src/components/layout/navbar.tsx:44-242 | Every event keeps the invariant. Once unmounted, no event changes anything. |
| NavbarProperties.MountEstablishesInv | src/components/layout/navbar.tsx:24-230 | The mounted state satisfies the invariant. |
| NavbarProperties.InvBoundsLive | src/components/layout/navbar.tsx:40-42 | Under the invariant, at most one trigger is live. Mobile has two live timelines and no trigger; desktop has three timelines and one trigger. |
| NavbarProperties.ToggleTwice | src/components/layout/navbar.tsx:145-156 | Two toggles restore the state exactly: the play/reverse calls are idempotent and the listener pair is replaced by an identical one. |
| NavbarProperties.ScrollIdempotent | src/components/layout/navbar.tsx:210-220 | Scrolling to the same position again changes nothing. |
| NavbarProperties.ScrollThereAndBack | src/components/layout/navbar.tsx:210-220 | Scrolling away and back to the original side of the start restores the state, including the navbar timeline's direction. |
| NavbarProperties.RunPreservesInv | src/components/layout/navbar.tsx:44-242 | Every event sequence keeps the invariant. |
| NavbarProperties.RunAfterUnmountInert | src/components/layout/navbar.tsx:52-237 | After unmount, no event sequence has any effect. |
| NavbarProperties.RunRequestsOnlyGrow | src/components/layout/navbar.tsx:239-242 | Scroll requests are only appended: the log before any event sequence is a prefix of the log after it. |
| NavbarProperties.ReachableStates | src/components/layout/navbar.tsx:145-230 | In every state reachable from a mount, the icon and panel timelines point the way the menu is. Mobile is elevated, with no trigger and no navbar timeline. Desktop has exactly one live trigger, and elevation equals "navbar timeline played". There is one listener per DOM event. |

## Left out

- URL resolution: the WHATWG basic URL parser inside `new URL(path, SITE_URL)` is a resolver parameter. Only the two short-circuit branches of `absoluteUrl` are specified.
- Date handling: ECMAScript `Date` parsing, the NaN test and `toISOString` form a parser parameter.
- Serialisation: `JSON.stringify` of the JSON-LD objects. The script's children are the JSON-LD value itself.
- Strings: strings are sequences of code points, while ECMAScript strings are UTF-16 code units. Every white-space character `trim` removes is in the Basic Multilingual Plane, and the compared prefixes are ASCII, so the results agree.
- `new URL` throwing: an input the WHATWG parser rejects raises an exception in `absoluteUrl`. The resolver parameter is total, so that exception is not modelled. The four paths the source passes ("/", "/og-image.jpg", "/favicon-96x96.png" and "/blog/<slug>") start with a single "/", never "//", so they never throw against the site URL. A rooted path such as "//" could throw, and the resolver parameter does not say so.
- Default argument: `absoluteUrl`'s default `path = "/"` for an omitted argument. Every caller passes a path.
- `siteMetadata` (src/lib/seo.ts:71-81): a plain record of the constants, used by nothing in the model.
- Seo.TagEntries: its contract says only that entries are non-blank `article:tag` records. The exact contents, order and membership are in TagEntriesAppend and TagEntriesMembership, because stating them on the recursive function made every proof that unfolds it too costly.
- JsString.Join: has no contract of its own. Its properties are in the JoinEnds, JoinSnoc and JoinLength lemmas, because a contract on Join unfolded at every literal call site.
- Animation: GSAP tweens, easing, durations, `gsap.set` styling and `colorWithOpacity`'s percentage formatting. A timeline is only a handle with a direction.
- The server-side branch `typeof window !== 'undefined' ? … : false` (navbar.tsx:26). Mounting always has a width.
- The early `return`s for missing DOM refs (navbar.tsx:59, 83, 109, 161). While the component is mounted, its refs are attached.
- Effect ordering inside one React commit: layout effects before passive ones, and batching. Each modelled event runs its effects in sequence, and the state they reach does not depend on the order.
- The outside-click listener pair is attached for every value of `mobileMenuOpen` (navbar.tsx:57-76), not only while the menu is open. The model follows the code, and the handler itself ignores events while the menu is closed.
- The timing of the elevation cleanup (navbar.tsx:222-227) belongs to `useGSAP`, which defers a cleanup registered under dependencies until unmount. The model runs it at unmount only. On a mode change, the setup's own opening kills (navbar.tsx:163-166) release the old trigger and timeline, and the resulting state is the same either way.
- Whether a trigger created beyond its start fires `onEnter` at once is ScrollTrigger runtime behaviour. The model assumes it does, so elevation always matches the scroll side.
- JSX rendering, `ThemeToggle`, Lenis smooth-scrolling (recorded as a request only), and the hero, footer, blog, works and index sections and the root route's stylesheet prepend: presentation or framework wiring with no state logic.

=== FILE: js_string.dfy ===
/** The few ECMAScript string operations the head-tag builder relies on:
    `String.prototype.trim`, `String.prototype.startsWith` and
    `Array.prototype.join`, over strings as sequences of code points. */
module JsString {

  /** ECMA-262 "White Space" (TAB, VT, FF, ZWNBSP and every space separator)
      together with "Line Terminators" (LF, CR, LS, PS): the code points
      `trim` strips. */
  predicate IsWhiteSpace(c: char) {
    var n := c as int;
    || n == 0x09 || n == 0x0A || n == 0x0B || n == 0x0C || n == 0x0D
    || n == 0x20 || n == 0xA0 || n == 0x1680
    || (0x2000 <= n <= 0x200A)
    || n == 0x2028 || n == 0x2029 || n == 0x202F || n == 0x205F
    || n == 0x3000 || n == 0xFEFF
  }

  /** Every code point of `s` is white space (vacuously true of ""). */
  predicate IsBlank(s: string) {
    forall i :: 0 <= i < |s| ==> IsWhiteSpace(s[i])
  }

  /** Number of white-space code points `s` starts with. */
  function LeadingWhiteSpace(s: string): (n: nat)
    ensures n <= |s|
    ensures IsBlank(s[..n])
    ensures n < |s| ==> !IsWhiteSpace(s[n])
  {
    if s == [] || !IsWhiteSpace(s[0]) then 0
    else
      var k := LeadingWhiteSpace(s[1..]);
      assert s[..k + 1] == [s[0]] + s[1..][..k];
      1 + k
  }

  /** Number of white-space code points `s` ends with. */
  function TrailingWhiteSpace(s: string): (n: nat)
    ensures n <= |s|
    ensures IsBlank(s[|s| - n..])
    ensures n < |s| ==> !IsWhiteSpace(s[|s| - 1 - n])
  {
    if s == [] || !IsWhiteSpace(s[|s| - 1]) then 0
    else
      var init := s[..|s| - 1];
      var k := TrailingWhiteSpace(init);
      assert s[|s| - (k + 1)..] == init[|init| - k..] + [s[|s| - 1]];
      1 + k
  }

  /** `String.prototype.trim`: `s` without its white-space prefix and suffix.
      The result is the slice of `s` starting after the leading white space;
      what it leaves out on either side is blank, and a non-empty result
      neither starts nor ends with white space. */
  function Trim(s: string): (r: string)
    ensures r == [] <==> IsBlank(s)
    ensures r != [] ==> !IsWhiteSpace(r[0]) && !IsWhiteSpace(r[|r| - 1])
    ensures LeadingWhiteSpace(s) + |r| <= |s|
    ensures r == s[LeadingWhiteSpace(s)..LeadingWhiteSpace(s) + |r|]
    ensures IsBlank(s[LeadingWhiteSpace(s) + |r|..])
  {
    var lead := LeadingWhiteSpace(s);
    if lead == |s| then
      assert s[..lead] == s;
      []
    else
      var trail := TrailingWhiteSpace(s);
      assert lead < |s| - trail;
      assert !IsBlank(s) by { assert !IsWhiteSpace(s[lead]); }
      s[lead..|s| - trail]
  }

  /** Trimming is the identity on a string with no white space at either end. */
  lemma TrimOfTrimmed(s: string)
    requires s == [] || (!IsWhiteSpace(s[0]) && !IsWhiteSpace(s[|s| - 1]))
    ensures Trim(s) == s
  {
    if s != [] {
      assert LeadingWhiteSpace(s) == 0;
      assert TrailingWhiteSpace(s) == 0;
    }
  }

  /** Trimming is idempotent. */
  lemma TrimIdempotent(s: string)
    ensures Trim(Trim(s)) == Trim(s)
  {
    TrimOfTrimmed(Trim(s));
  }

  /** A blank prefix followed by a non-white-space character is exactly the
      leading white space. */
  lemma LeadingOfPadded(pre: string, rest: string)
    requires IsBlank(pre) && rest != [] && !IsWhiteSpace(rest[0])
    ensures LeadingWhiteSpace(pre + rest) == |pre|
  {
    var s := pre + rest;
    var lead := LeadingWhiteSpace(s);
    assert forall i :: 0 <= i < lead ==> IsWhiteSpace(s[i]) by {
      assert forall i :: 0 <= i < lead ==> s[i] == s[..lead][i];
    }
    assert forall i :: 0 <= i < |pre| ==> IsWhiteSpace(s[i]) by {
      assert forall i :: 0 <= i < |pre| ==> s[i] == pre[i];
    }
    assert s[|pre|] == rest[0];
  }

  /** A blank suffix preceded by a non-white-space character is exactly the
      trailing white space. */
  lemma TrailingOfPadded(rest: string, post: string)
    requires IsBlank(post) && rest != [] && !IsWhiteSpace(rest[|rest| - 1])
    ensures TrailingWhiteSpace(rest + post) == |post|
  {
    var s := rest + post;
    var trail := TrailingWhiteSpace(s);
    var tail := s[|s| - trail..];
    assert forall i :: |s| - trail <= i < |s| ==> IsWhiteSpace(s[i]) by {
      assert forall i :: |s| - trail <= i < |s| ==> s[i] == tail[i - (|s| - trail)];
    }
    assert forall i :: |rest| <= i < |s| ==> IsWhiteSpace(s[i]) by {
      assert forall i :: |rest| <= i < |s| ==> s[i] == post[i - |rest|];
    }
    assert s[|rest| - 1] == rest[|rest| - 1];
  }

  /** Trim is exactly "strip a blank prefix and a blank suffix": padding a
      string whose ends are not white space with blank strings on both sides
      and trimming gives that string back. */
  lemma TrimOfPadded(pre: string, t: string, post: string)
    requires IsBlank(pre) && IsBlank(post)
    requires t != [] && !IsWhiteSpace(t[0]) && !IsWhiteSpace(t[|t| - 1])
    ensures Trim(pre + t + post) == t
  {
    var s := pre + t + post;
    assert s == pre + (t + post);
    assert (t + post)[0] == t[0];
    LeadingOfPadded(pre, t + post);
    assert s == (pre + t) + post;
    assert (pre + t)[|pre + t| - 1] == t[|t| - 1];
    TrailingOfPadded(pre + t, post);
    assert s[|pre|..|s| - |post|] == t;
  }

  lemma BlankConcat(a: string, b: string)
    requires IsBlank(a) && IsBlank(b)
    ensures IsBlank(a + b)
  {
    assert forall i :: 0 <= i < |a + b| ==> (a + b)[i] == if i < |a| then a[i] else b[i - |a|];
  }

  /** A string with a non-white-space character is its leading white
      space, its trimmed form and its trailing white space, in that order. */
  lemma TrimSplits(s: string)
    requires !IsBlank(s)
    ensures
      var lead := LeadingWhiteSpace(s);
      var t := Trim(s);
      && s == s[..lead] + t + s[lead + |t|..]
      && IsBlank(s[..lead]) && IsBlank(s[lead + |t|..])
  {
    var lead := LeadingWhiteSpace(s);
    var t := Trim(s);
    assert s == s[..lead] + s[lead..lead + |t|] + s[lead + |t|..];
  }

  /** Blank padding on either side does not change the trimmed string. */
  lemma TrimIgnoresPadding(pre: string, s: string, post: string)
    requires IsBlank(pre) && IsBlank(post)
    ensures Trim(pre + s + post) == Trim(s)
  {
    if IsBlank(s) {
      BlankConcat(pre, s);
      BlankConcat(pre + s, post);
    } else {
      TrimSplits(s);
      var t := Trim(s);
      var a := s[..LeadingWhiteSpace(s)];
      var b := s[LeadingWhiteSpace(s) + |t|..];
      Regroup(pre, a, t, b, post);
      BlankConcat(pre, a);
      BlankConcat(b, post);
      TrimOfPadded(pre + a, t, b + post);
    }
  }

  /** Regrouping the five pieces, kept apart so that sequence associativity
      is not searched for in the context of the trim proofs. */
  lemma Regroup(pre: string, a: string, t: string, b: string, post: string)
    ensures pre + (a + t + b) + post == (pre + a) + t + (b + post)
  {
  }

  /** `s.startsWith(prefix)`, compared code point by code point. */
  predicate StartsWith(s: string, prefix: string) {
    prefix == [] || (s != [] && s[0] == prefix[0] && StartsWith(s[1..], prefix[1..]))
  }

  /** `startsWith` is the prefix relation on sequences. */
  lemma {:induction false} StartsWithIsPrefix(s: string, prefix: string)
    ensures StartsWith(s, prefix) <==> prefix <= s
  {
    if prefix != [] && s != [] {
      StartsWithIsPrefix(s[1..], prefix[1..]);
      assert prefix <= s <==> s[0] == prefix[0] && prefix[1..] <= s[1..];
    }
  }

  /** `xs.join(sep)` for an array of strings: the elements in order, with
      `sep` between neighbours. */
  function Join(xs: seq<string>, sep: string): string {
    if |xs| == 0 then ""
    else if |xs| == 1 then xs[0]
    else xs[0] + sep + Join(xs[1..], sep)
  }

  /** The joined string opens with the first element and closes with the
      last. */
  lemma {:induction false} JoinEnds(xs: seq<string>, sep: string)
    requires xs != []
    ensures xs[0] <= Join(xs, sep)
    ensures |xs[|xs| - 1]| <= |Join(xs, sep)|
    ensures Join(xs, sep)[|Join(xs, sep)| - |xs[|xs| - 1]|..] == xs[|xs| - 1]
  {
    if |xs| > 1 {
      var rest := Join(xs[1..], sep);
      JoinEnds(xs[1..], sep);
      assert xs[1..][|xs[1..]| - 1] == xs[|xs| - 1];
      var r := xs[0] + sep + rest;
      assert r[..|xs[0]|] == xs[0];
      assert r[|r| - |rest|..] == rest;
    }
  }

  /** ECMA-262 defines `join` as a left-to-right accumulation, R := R + sep +
      next; the right-recursive `Join` agrees with it. */
  lemma {:induction false} JoinSnoc(xs: seq<string>, x: string, sep: string)
    requires xs != []
    ensures Join(xs + [x], sep) == Join(xs, sep) + sep + x
  {
    if |xs| == 1 {
      assert xs + [x] == [xs[0], x];
      assert [xs[0], x][1..] == [x];
    } else {
      assert (xs + [x])[1..] == xs[1..] + [x];
      JoinSnoc(xs[1..], x, sep);
    }
  }

  /** Sum of the lengths of the strings in `xs`. */
  function TotalLength(xs: seq<string>): nat {
    if xs == [] then 0 else |xs[0]| + TotalLength(xs[1..])
  }

  /** The joined string holds every element and one separator between each
      pair of neighbours, and nothing else. */
  lemma {:induction false} JoinLength(xs: seq<string>, sep: string)
    requires xs != []
    ensures |Join(xs, sep)| == TotalLength(xs) + (|xs| - 1) * |sep|
  {
    if |xs| > 1 {
      JoinLength(xs[1..], sep);
    }
  }
}

=== FILE: navbar.dfy ===
/** The navigation bar's controller: menu-open state, viewport mode, scroll
    elevation, the three reversible timelines and the event subscriptions it
    owns, as a state record with one transition function per event.

    Animation values, easing and DOM styling are not modelled: a timeline is
    a handle with a direction. Window width, scroll position and DOM
    containment arrive as plain inputs; smooth scrolling is recorded as an
    emitted request. */
module Navbar {
  import opened Optional

  /** Widths strictly below this are mobile. */
  const MOBILE_BREAKPOINT: int := 1024

  /** The scroll trigger starts 12px below the top ('top+=12 top'). */
  const SCROLL_START_OFFSET: int := 12

  datatype NavLink = NavLink(caption: string, target: string)

  const NAV_LINKS: seq<NavLink> := [NavLink("Works", "#works"), NavLink("Blog", "#blog")]
  const HERO_TARGET: string := "#hero"
  const CONTACT_TARGET: string := "#contact"

  predicate IsMobileWidth(width: int) {
    width < MOBILE_BREAKPOINT
  }

  /** The scroll position lies beyond the trigger's start. */
  predicate PastStart(scrollY: int) {
    scrollY > SCROLL_START_OFFSET
  }

  // ---------------------------------------------------------------------
  // Animation runtime
  // ---------------------------------------------------------------------

  /** A reversible timeline is either played forward or reversed (a fresh,
      paused timeline sits at its start, which is the reversed end). */
  datatype Direction = Reversed | Played

  function DirectionFor(forward: bool): Direction {
    if forward then Played else Reversed
  }

  /** Ownership token for a timeline or a scroll trigger. */
  type Handle = nat

  /** What the animation runtime holds: every live timeline with its
      direction, every live scroll trigger, and the next unused handle. */
  datatype Runtime = Runtime(timelines: map<Handle, Direction>, triggers: set<Handle>, next: Handle)

  /** Every live handle was issued before `next`. */
  predicate HandlesIssued(rt: Runtime) {
    && (forall h :: h in rt.timelines ==> h < rt.next)
    && (forall h :: h in rt.triggers ==> h < rt.next)
  }

  /** `gsap.timeline({ paused: true })`: a fresh handle, live and reversed;
      nothing else changes. */
  function CreateTimeline(rt: Runtime): (res: (Runtime, Handle))
    ensures res.1 == rt.next && res.0.next == rt.next + 1
    ensures res.0.timelines == rt.timelines[res.1 := Reversed]
    ensures res.0.triggers == rt.triggers
  {
    (Runtime(rt.timelines[rt.next := Reversed], rt.triggers, rt.next + 1), rt.next)
  }

  /** `ScrollTrigger.create(...)`: a fresh live trigger. */
  function CreateTrigger(rt: Runtime): (res: (Runtime, Handle))
    ensures res.1 == rt.next && res.0.next == rt.next + 1
    ensures res.0.triggers == rt.triggers + {res.1}
    ensures res.0.timelines == rt.timelines
  {
    (Runtime(rt.timelines, rt.triggers + {rt.next}, rt.next + 1), rt.next)
  }

  /** `ref.current?.kill()` on a timeline reference. */
  function KillTimeline(rt: Runtime, ref: Option<Handle>): (r: Runtime)
    ensures r.timelines.Keys == rt.timelines.Keys - AsSet(ref)
    ensures forall h :: h in r.timelines ==> r.timelines[h] == rt.timelines[h]
    ensures r.triggers == rt.triggers && r.next == rt.next
  {
    match ref
    case None => rt
    case Some(h) => rt.(timelines := rt.timelines - {h})
  }

  /** `ref.current?.kill()` on a trigger reference. */
  function KillTrigger(rt: Runtime, ref: Option<Handle>): (r: Runtime)
    ensures r.triggers == rt.triggers - AsSet(ref)
    ensures r.timelines == rt.timelines && r.next == rt.next
  {
    match ref
    case None => rt
    case Some(h) => rt.(triggers := rt.triggers - {h})
  }

  /** `ref.current?.play()` / `reverse()`: a live timeline takes direction
      `d` (idempotently); an absent or killed one is left alone. */
  function Steer(rt: Runtime, ref: Option<Handle>, d: Direction): (r: Runtime)
    ensures r.timelines.Keys == rt.timelines.Keys
    ensures forall h :: h in r.timelines ==>
      r.timelines[h] == (if ref == Some(h) then d else rt.timelines[h])
    ensures r.triggers == rt.triggers && r.next == rt.next
  {
    if ref.Some? && ref.value in rt.timelines then rt.(timelines := rt.timelines[ref.value := d])
    else rt
  }

  /** `removeEventListener` of a registered listener. */
  function Unsubscribe(count: nat): nat {
    if count == 0 then 0 else count - 1
  }

  // ---------------------------------------------------------------------
  // Component state
  // ---------------------------------------------------------------------

  /** The mounted component: ambient inputs (`width`, `scrolledPast`), React
      state, the timeline and trigger refs, the number of live listeners per
      DOM event, the runtime, and the scroll requests issued so far. */
  datatype NavState = NavState(
    mounted: bool,
    width: int,
    scrolledPast: bool,
    mobileMenuOpen: bool,
    isMobile: bool,
    isNavbarElevated: bool,
    toggleTl: Option<Handle>,
    menuTl: Option<Handle>,
    navbarTl: Option<Handle>,
    scrollTrigger: Option<Handle>,
    resizeListeners: nat,
    clickListeners: nat,
    touchEndListeners: nat,
    rt: Runtime,
    scrollRequests: seq<string>)

  /** What holds between events. While mounted: one listener per DOM event;
      the viewport mode matches the width; exactly the icon and panel
      timelines plus, on desktop, one navbar timeline are live, and exactly
      the desktop scroll trigger; the icon and panel timelines point the way
      the menu is; on mobile the bar is elevated with no trigger or navbar
      timeline; on desktop elevation follows the scroll side and the navbar
      timeline's direction mirrors it. Once unmounted nothing is live. */
  predicate Inv(s: NavState) {
    if !s.mounted then
      && s.rt.timelines == map[] && s.rt.triggers == {}
      && s.resizeListeners == 0 && s.clickListeners == 0 && s.touchEndListeners == 0
    else
      && HandlesIssued(s.rt)
      && s.resizeListeners == 1 && s.clickListeners == 1 && s.touchEndListeners == 1
      && s.isMobile == IsMobileWidth(s.width)
      && s.toggleTl.Some? && s.menuTl.Some? && s.toggleTl.value != s.menuTl.value
      && s.rt.timelines.Keys == {s.toggleTl.value, s.menuTl.value} + AsSet(s.navbarTl)
      && s.rt.timelines[s.toggleTl.value] == DirectionFor(s.mobileMenuOpen)
      && s.rt.timelines[s.menuTl.value] == DirectionFor(s.mobileMenuOpen)
      && s.rt.triggers == AsSet(s.scrollTrigger)
      && (s.isMobile ==> s.isNavbarElevated && s.navbarTl.None? && s.scrollTrigger.None?)
      && (!s.isMobile ==>
            && s.navbarTl.Some? && s.scrollTrigger.Some?
            && s.navbarTl.value != s.toggleTl.value && s.navbarTl.value != s.menuTl.value
            && s.isNavbarElevated == s.scrolledPast
            && s.rt.timelines[s.navbarTl.value] == DirectionFor(s.isNavbarElevated))
  }

  // ---------------------------------------------------------------------
  // Effects
  // ---------------------------------------------------------------------

  /** `after` differs from `before` at most in the directions of the
      timelines referenced by `a` and `b`: the same timelines and triggers
      are live, no handle was issued, every other timeline kept its
      direction. */
  predicate SteeredOnly(before: Runtime, after: Runtime, a: Option<Handle>, b: Option<Handle>) {
    && after.timelines.Keys == before.timelines.Keys
    && after.triggers == before.triggers
    && after.next == before.next
    && forall h :: h in after.timelines && Some(h) != a && Some(h) != b ==>
         after.timelines[h] == before.timelines[h]
  }

  /** The play/reverse effect: each live menu timeline (icon and panel)
      takes the menu's direction; nothing else changes. */
  function SyncMenuTimelines(s: NavState): (r: NavState)
    ensures r.(rt := s.rt) == s
    ensures SteeredOnly(s.rt, r.rt, s.toggleTl, s.menuTl)
    ensures s.toggleTl.Some? && s.toggleTl.value in s.rt.timelines ==>
      r.rt.timelines[s.toggleTl.value] == DirectionFor(s.mobileMenuOpen)
    ensures s.menuTl.Some? && s.menuTl.value in s.rt.timelines ==>
      r.rt.timelines[s.menuTl.value] == DirectionFor(s.mobileMenuOpen)
  {
    var d := DirectionFor(s.mobileMenuOpen);
    s.(rt := Steer(Steer(s.rt, s.toggleTl, d), s.menuTl, d))
  }

  /** The outside-click effect re-running: its cleanup removes the click and
      touchend listeners, its setup adds a fresh pair. */
  function ResubscribeOutside(s: NavState): NavState {
    s.(clickListeners := Unsubscribe(s.clickListeners) + 1,
       touchEndListeners := Unsubscribe(s.touchEndListeners) + 1)
  }

  /** `setMobileMenuOpen(v)`. Setting the current value is a no-op (React
      bails out and no effect re-runs); a change re-runs the outside-click
      effect and the play/reverse effect, and touches nothing else. */
  function SetMenuOpen(s: NavState, v: bool): (r: NavState)
    ensures r.mobileMenuOpen == v
    ensures v == s.mobileMenuOpen ==> r == s
    ensures r.(mobileMenuOpen := s.mobileMenuOpen, rt := s.rt,
               clickListeners := s.clickListeners, touchEndListeners := s.touchEndListeners) == s
    ensures SteeredOnly(s.rt, r.rt, s.toggleTl, s.menuTl)
    ensures s.clickListeners == 1 && s.touchEndListeners == 1 ==>
      r.clickListeners == 1 && r.touchEndListeners == 1
    ensures v != s.mobileMenuOpen ==>
      forall h :: h in r.rt.timelines && (Some(h) == s.toggleTl || Some(h) == s.menuTl) ==>
        r.rt.timelines[h] == DirectionFor(v)
  {
    if v == s.mobileMenuOpen then s
    else SyncMenuTimelines(ResubscribeOutside(s.(mobileMenuOpen := v)))
  }

  /** Kill the scroll trigger and the navbar timeline and clear both refs:
      the start of the elevation setup and the whole of its cleanup. */
  function TeardownElevation(s: NavState): (r: NavState)
    ensures r.scrollTrigger.None? && r.navbarTl.None?
    ensures r.rt.timelines.Keys == s.rt.timelines.Keys - AsSet(s.navbarTl)
    ensures r.rt.triggers == s.rt.triggers - AsSet(s.scrollTrigger)
    ensures r.rt.next == s.rt.next
    ensures forall h :: h in r.rt.timelines ==> r.rt.timelines[h] == s.rt.timelines[h]
    ensures r.(navbarTl := s.navbarTl, scrollTrigger := s.scrollTrigger, rt := s.rt) == s
  {
    s.(rt := KillTimeline(KillTrigger(s.rt, s.scrollTrigger), s.navbarTl),
       scrollTrigger := None,
       navbarTl := None)
  }

  /** The trigger's `onEnter`: elevate and play the navbar timeline; only
      that timeline's direction and the elevated flag change. */
  function OnEnter(s: NavState): (r: NavState)
    ensures r.isNavbarElevated
    ensures r.(isNavbarElevated := s.isNavbarElevated, rt := s.rt) == s
    ensures SteeredOnly(s.rt, r.rt, s.navbarTl, s.navbarTl)
    ensures s.navbarTl.Some? && s.navbarTl.value in s.rt.timelines ==>
      r.rt.timelines[s.navbarTl.value] == Played
  {
    s.(isNavbarElevated := true, rt := Steer(s.rt, s.navbarTl, Played))
  }

  /** The trigger's `onLeaveBack`: lower and reverse the navbar timeline;
      only that timeline's direction and the elevated flag change. */
  function OnLeaveBack(s: NavState): (r: NavState)
    ensures !r.isNavbarElevated
    ensures r.(isNavbarElevated := s.isNavbarElevated, rt := s.rt) == s
    ensures SteeredOnly(s.rt, r.rt, s.navbarTl, s.navbarTl)
    ensures s.navbarTl.Some? && s.navbarTl.value in s.rt.timelines ==>
      r.rt.timelines[s.navbarTl.value] == Reversed
  {
    s.(isNavbarElevated := false, rt := Steer(s.rt, s.navbarTl, Reversed))
  }

  /** The elevation setup, run for each viewport mode. It first kills any
      trigger and navbar timeline. Mobile: elevated, nothing created.
      Desktop: not elevated, one fresh paused navbar timeline and one fresh
      trigger; a trigger created beyond its start fires `onEnter` at once.
      Exactly the old references die and exactly the new ones are born. */
  function SetupElevation(s: NavState): (r: NavState)
    ensures r.rt.triggers == s.rt.triggers - AsSet(s.scrollTrigger) + AsSet(r.scrollTrigger)
    ensures r.rt.timelines.Keys == s.rt.timelines.Keys - AsSet(s.navbarTl) + AsSet(r.navbarTl)
    ensures s.isMobile ==> r.isNavbarElevated && r.scrollTrigger.None? && r.navbarTl.None?
    ensures !s.isMobile ==>
      && r.scrollTrigger.Some? && r.scrollTrigger.value >= s.rt.next
      && r.navbarTl.Some? && r.navbarTl.value >= s.rt.next
      && r.scrollTrigger.value != r.navbarTl.value
      && r.rt.timelines[r.navbarTl.value] == DirectionFor(s.scrolledPast)
      && r.isNavbarElevated == s.scrolledPast
    ensures forall h :: h in r.rt.timelines && Some(h) != r.navbarTl ==>
      h in s.rt.timelines && r.rt.timelines[h] == s.rt.timelines[h]
    ensures r.(isNavbarElevated := s.isNavbarElevated, navbarTl := s.navbarTl,
               scrollTrigger := s.scrollTrigger, rt := s.rt) == s
  {
    var s1 := TeardownElevation(s);
    if s1.isMobile then s1.(isNavbarElevated := true)
    else
      var (rt1, tl) := CreateTimeline(s1.rt);
      var (rt2, st) := CreateTrigger(rt1);
      var s2 := s1.(isNavbarElevated := false, navbarTl := Some(tl), scrollTrigger := Some(st), rt := rt2);
      if s2.scrolledPast then OnEnter(s2) else s2
  }

  // ---------------------------------------------------------------------
  // Events
  // ---------------------------------------------------------------------

  /** The first render at a given window width and scroll position, after
      the icon and panel setups: both menu timelines exist, paused at their
      reversed end, and nothing else is live. `isMobile` starts from the
      width (the viewport effect confirms the same value). */
  function Rendered(width: int, scrollY: int): (r: NavState)
    ensures r.mounted && !r.mobileMenuOpen && r.scrollRequests == []
    ensures r.isMobile == IsMobileWidth(width) && r.width == width && r.scrolledPast == PastStart(scrollY)
    ensures r.toggleTl == Some(0) && r.menuTl == Some(1) && r.navbarTl.None? && r.scrollTrigger.None?
    ensures r.rt == Runtime(map[0 := Reversed, 1 := Reversed], {}, 2)
  {
    var s0 := NavState(true, width, PastStart(scrollY), false, IsMobileWidth(width), false,
                       None, None, None, None, 0, 0, 0, Runtime(map[], {}, 0), []);
    var (rt1, icon) := CreateTimeline(s0.rt);
    var (rt2, panel) := CreateTimeline(rt1);
    s0.(toggleTl := Some(icon), menuTl := Some(panel), rt := rt2)
  }

  /** Mounting: the first render, then the elevation setup, then the
      resize and outside-click listeners attach and the play/reverse effect
      runs with the menu closed. */
  function Mount(width: int, scrollY: int): (r: NavState)
    ensures r.mounted
    ensures r.isMobile <==> width < MOBILE_BREAKPOINT
    ensures !r.mobileMenuOpen && r.scrollRequests == []
    ensures r.isNavbarElevated <==> r.isMobile || scrollY > SCROLL_START_OFFSET
    ensures r.isMobile ==> r.rt.triggers == {}
    ensures !r.isMobile ==> |r.rt.triggers| == 1
  {
    var s1 := SetupElevation(Rendered(width, scrollY));
    SyncMenuTimelines(s1.(resizeListeners := 1, clickListeners := 1, touchEndListeners := 1))
  }

  /** The hamburger button's click: flips the menu and nothing else that
      the component reads; the menu timelines follow the new value. */
  function Toggle(s: NavState): (r: NavState)
    ensures s.mounted ==> r.mobileMenuOpen == !s.mobileMenuOpen
    ensures r.(mobileMenuOpen := s.mobileMenuOpen, rt := s.rt,
               clickListeners := s.clickListeners, touchEndListeners := s.touchEndListeners) == s
    ensures SteeredOnly(s.rt, r.rt, s.toggleTl, s.menuTl)
    ensures Inv(s) ==> Inv(r)
  {
    if !s.mounted then s else SetMenuOpen(s, !s.mobileMenuOpen)
  }

  /** The clickable items that scroll: the brand, each link of the desktop
      row and of the mobile panel, and the two Contact buttons. */
  datatype NavAction = Brand | DesktopLink(index: nat) | DesktopContact | MenuLink(index: nat) | MenuContact

  predicate ValidAction(a: NavAction) {
    match a
    case DesktopLink(i) => i < |NAV_LINKS|
    case MenuLink(i) => i < |NAV_LINKS|
    case _ => true
  }

  function TargetOf(a: NavAction): string
    requires ValidAction(a)
  {
    match a
    case Brand => HERO_TARGET
    case DesktopLink(i) => NAV_LINKS[i].target
    case MenuLink(i) => NAV_LINKS[i].target
    case DesktopContact => CONTACT_TARGET
    case MenuContact => CONTACT_TARGET
  }

  /** `handleScroll(target)`: closes the menu and issues exactly one scroll
      request, with the item's target; nothing else changes. */
  function Navigate(s: NavState, a: NavAction): (r: NavState)
    requires ValidAction(a)
    ensures s.mounted ==> !r.mobileMenuOpen && r.scrollRequests == s.scrollRequests + [TargetOf(a)]
    ensures !s.mounted ==> r == s
    ensures r.(mobileMenuOpen := s.mobileMenuOpen, rt := s.rt, scrollRequests := s.scrollRequests,
               clickListeners := s.clickListeners, touchEndListeners := s.touchEndListeners) == s
    ensures SteeredOnly(s.rt, r.rt, s.toggleTl, s.menuTl)
    ensures Inv(s) ==> Inv(r)
  {
    if !s.mounted then s
    else SetMenuOpen(s.(scrollRequests := s.scrollRequests + [TargetOf(a)]), false)
  }

  /** Where a click or touch landed, relative to the two tracked regions. */
  datatype Target = Target(inMenu: bool, inToggle: bool)

  datatype InputKind = Click | TouchEnd

  function ListenerCount(s: NavState, kind: InputKind): nat {
    match kind
    case Click => s.clickListeners
    case TouchEnd => s.touchEndListeners
  }

  /** The document-level click/touchend handler: closes the menu exactly
      when it is open and the target is in neither the panel nor the toggle
      button; in every other case the state is unchanged. */
  function OutsideInteraction(s: NavState, kind: InputKind, t: Target): (r: NavState)
    ensures Inv(s) && s.mounted ==>
      (r.mobileMenuOpen != s.mobileMenuOpen <==> s.mobileMenuOpen && !t.inMenu && !t.inToggle)
    ensures !s.mobileMenuOpen || t.inMenu || t.inToggle ==> r == s
    ensures r.(mobileMenuOpen := s.mobileMenuOpen, rt := s.rt,
               clickListeners := s.clickListeners, touchEndListeners := s.touchEndListeners) == s
    ensures SteeredOnly(s.rt, r.rt, s.toggleTl, s.menuTl)
    ensures Inv(s) ==> Inv(r)
  {
    if !s.mounted || ListenerCount(s, kind) == 0 then s
    else if s.mobileMenuOpen && !t.inMenu && !t.inToggle then SetMenuOpen(s, false)
    else s
  }

  /** A window resize. `isMobile` is recomputed; when the mode does not
      change nothing else does (React bails out of the equal update). When
      it changes, the elevation setup re-runs and starts by killing the old
      trigger and navbar timeline; a desktop setup creates fresh ones. The
      menu is left as it was. */
  function Resize(s: NavState, width: int): (r: NavState)
    ensures s.mounted && s.resizeListeners > 0 ==> (r.isMobile <==> width < MOBILE_BREAKPOINT)
    ensures s.mounted && s.resizeListeners > 0 && IsMobileWidth(width) == s.isMobile ==> r == s.(width := width)
    ensures Inv(s) && s.mounted && IsMobileWidth(width) != s.isMobile ==>
      && (s.scrollTrigger.Some? ==> s.scrollTrigger.value !in r.rt.triggers)
      && (s.navbarTl.Some? ==> s.navbarTl.value !in r.rt.timelines)
      && (r.scrollTrigger.Some? ==> r.scrollTrigger.value >= s.rt.next)
      && (r.navbarTl.Some? ==> r.navbarTl.value >= s.rt.next)
    ensures r.mobileMenuOpen == s.mobileMenuOpen && r.scrollRequests == s.scrollRequests
    ensures s.mounted && s.resizeListeners > 0 ==>
      r.(isMobile := s.isMobile, isNavbarElevated := s.isNavbarElevated, navbarTl := s.navbarTl,
         scrollTrigger := s.scrollTrigger, rt := s.rt) == s.(width := width)
    ensures !s.mounted || s.resizeListeners == 0 ==> r == s
    ensures forall h :: h in r.rt.timelines && Some(h) != r.navbarTl ==>
      h in s.rt.timelines && r.rt.timelines[h] == s.rt.timelines[h]
    ensures Inv(s) && s.mounted ==> (r.isNavbarElevated <==> IsMobileWidth(width) || s.scrolledPast)
    ensures Inv(s) ==> Inv(r)
  {
    if !s.mounted || s.resizeListeners == 0 then s
    else
      var s1 := s.(width := width);
      if IsMobileWidth(width) == s.isMobile then s1
      else SetupElevation(s1.(isMobile := IsMobileWidth(width)))
  }

  /** The page scrolls to `scrollY`. A live trigger fires `onEnter` when the
      position moves beyond its start and `onLeaveBack` when it moves back;
      staying on one side fires nothing. On mobile there is no trigger. */
  function Scroll(s: NavState, scrollY: int): (r: NavState)
    ensures Inv(s) && s.mounted && !s.isMobile ==> r.isNavbarElevated == PastStart(scrollY)
    ensures s.scrollTrigger.None? || PastStart(scrollY) == s.scrolledPast ==>
      r == (if s.mounted then s.(scrolledPast := PastStart(scrollY)) else s)
    ensures r.mobileMenuOpen == s.mobileMenuOpen && r.isMobile == s.isMobile
    ensures s.mounted ==> r.scrolledPast == PastStart(scrollY)
    ensures !s.mounted ==> r == s
    ensures r.(scrolledPast := s.scrolledPast, isNavbarElevated := s.isNavbarElevated, rt := s.rt) == s
    ensures SteeredOnly(s.rt, r.rt, s.navbarTl, s.navbarTl)
    ensures Inv(s) ==> Inv(r)
  {
    if !s.mounted then s
    else
      var past := PastStart(scrollY);
      var s1 := s.(scrolledPast := past);
      if s.scrollTrigger.None? || past == s.scrolledPast then s1
      else if past then OnEnter(s1)
      else OnLeaveBack(s1)
  }

  /** Unmounting runs every cleanup: listeners removed, icon and panel
      timelines killed, the elevation cleanup registered by a desktop setup,
      and the final trigger kill. Nothing stays live. */
  function Unmount(s: NavState): (r: NavState)
    ensures !r.mounted
    ensures Inv(s) ==> r.rt.timelines == map[] && r.rt.triggers == {}
    ensures Inv(s) ==> r.resizeListeners == 0 && r.clickListeners == 0 && r.touchEndListeners == 0
    ensures r.scrollRequests == s.scrollRequests
  {
    if !s.mounted then s
    else
      var s1 := s.(rt := KillTimeline(KillTimeline(s.rt, s.toggleTl), s.menuTl),
                   resizeListeners := Unsubscribe(s.resizeListeners),
                   clickListeners := Unsubscribe(s.clickListeners),
                   touchEndListeners := Unsubscribe(s.touchEndListeners));
      var s2 := if !s.isMobile then TeardownElevation(s1) else s1;
      var s3 := s2.(rt := KillTrigger(s2.rt, s2.scrollTrigger), scrollTrigger := None);
      s3.(mounted := false)
  }

  datatype Event =
    | ToggleClicked
    | NavClicked(action: NavAction)
    | DocumentTap(kind: InputKind, target: Target)
    | Resized(width: int)
    | Scrolled(scrollY: int)
    | Unmounted

  predicate ValidEvent(e: Event) {
    e.NavClicked? ==> ValidAction(e.action)
  }

  /** One event. Once unmounted, no handler is attached, so nothing
      happens. */
  function Step(s: NavState, e: Event): (r: NavState)
    requires ValidEvent(e)
    ensures Inv(s) ==> Inv(r)
    ensures !s.mounted ==> r == s
  {
    match e
    case ToggleClicked => Toggle(s)
    case NavClicked(a) => Navigate(s, a)
    case DocumentTap(k, t) => OutsideInteraction(s, k, t)
    case Resized(w) => Resize(s, w)
    case Scrolled(y) => Scroll(s, y)
    case Unmounted => Unmount(s)
  }

  /** A sequence of events, in order. */
  function Run(s: NavState, events: seq<Event>): NavState
    requires forall i :: 0 <= i < |events| ==> ValidEvent(events[i])
    decreases |events|
  {
    if events == [] then s else Run(Step(s, events[0]), events[1..])
  }
}

=== FILE: navbar_properties.dfy ===
/** Properties of the navigation bar's controller across events and event
    sequences. */
module NavbarProperties {
  import opened Optional
  import opened Navbar

  /** Mounting establishes the invariant. */
  lemma MountEstablishesInv(width: int, scrollY: int)
    ensures Inv(Mount(width, scrollY))
  {
    var s0 := Rendered(width, scrollY);
    var s1 := SetupElevation(s0);
    assert s1.rt.timelines.Keys == {0, 1} + AsSet(s1.navbarTl);
    assert s1.rt.timelines[0] == Reversed && s1.rt.timelines[1] == Reversed;
    assert HandlesIssued(s1.rt);
  }

  /** The invariant bounds what is live: at most one scroll trigger and at
      most three timelines; two on mobile, three on desktop. */
  lemma InvBoundsLive(s: NavState)
    requires Inv(s) && s.mounted
    ensures |s.rt.triggers| <= 1
    ensures s.isMobile ==> |s.rt.timelines| == 2 && |s.rt.triggers| == 0
    ensures !s.isMobile ==> |s.rt.timelines| == 3 && |s.rt.triggers| == 1
  {
  }

  /** Clicking the toggle twice restores the state exactly: the menu
      timelines are back where they were and the listeners were swapped
      for an identical pair. */
  lemma ToggleTwice(s: NavState)
    requires Inv(s)
    ensures Toggle(Toggle(s)) == s
  {
  }

  /** Scrolling to the same position twice changes nothing the second time. */
  lemma ScrollIdempotent(s: NavState, scrollY: int)
    ensures Scroll(Scroll(s, scrollY), scrollY) == Scroll(s, scrollY)
  {
  }

  /** Scrolling away and back to the original side of the trigger's start
      restores the state: elevation and the navbar timeline return. */
  lemma ScrollThereAndBack(s: NavState, away: int, back: int)
    requires Inv(s)
    requires PastStart(back) == s.scrolledPast
    ensures Scroll(Scroll(s, away), back) == s
  {
  }

  /** Every event sequence keeps the invariant. */
  lemma {:induction false} RunPreservesInv(s: NavState, events: seq<Event>)
    requires forall i :: 0 <= i < |events| ==> ValidEvent(events[i])
    requires Inv(s)
    ensures Inv(Run(s, events))
    decreases |events|
  {
    if events != [] {
      RunPreservesInv(Step(s, events[0]), events[1..]);
    }
  }

  /** After unmounting, no event has any effect. */
  lemma {:induction false} RunAfterUnmountInert(s: NavState, events: seq<Event>)
    requires forall i :: 0 <= i < |events| ==> ValidEvent(events[i])
    requires !s.mounted
    ensures Run(s, events) == s
    decreases |events|
  {
    if events != [] {
      RunAfterUnmountInert(Step(s, events[0]), events[1..]);
    }
  }

  /** Scroll requests are only ever appended: the log before a run is a
      prefix of the log after it. */
  lemma {:induction false} RunRequestsOnlyGrow(s: NavState, events: seq<Event>)
    requires forall i :: 0 <= i < |events| ==> ValidEvent(events[i])
    ensures s.scrollRequests <= Run(s, events).scrollRequests
    decreases |events|
  {
    if events != [] {
      var e := events[0];
      var s1 := Step(s, e);
      assert s.scrollRequests <= s1.scrollRequests by {
        match e
        case NavClicked(a) =>
        case _ =>
      }
      RunRequestsOnlyGrow(s1, events[1..]);
    }
  }

  /** Whatever happens after mounting: the menu timelines point the way the
      menu is; on mobile the bar is elevated with no trigger and no navbar
      timeline; on desktop exactly one trigger is live and elevation equals
      "navbar timeline played"; and one listener per DOM event is attached. */
  lemma ReachableStates(width: int, scrollY: int, events: seq<Event>)
    requires forall i :: 0 <= i < |events| ==> ValidEvent(events[i])
    ensures
      var r := Run(Mount(width, scrollY), events);
      && Inv(r)
      && |r.rt.triggers| <= 1
      && (r.mounted ==>
            && r.rt.timelines[r.toggleTl.value] == DirectionFor(r.mobileMenuOpen)
            && r.rt.timelines[r.menuTl.value] == DirectionFor(r.mobileMenuOpen)
            && r.clickListeners == 1 && r.touchEndListeners == 1 && r.resizeListeners == 1
            && (r.isMobile ==> r.isNavbarElevated && r.rt.triggers == {} && r.navbarTl.None?)
            && (!r.isMobile ==>
                  && |r.rt.triggers| == 1
                  && (r.isNavbarElevated <==> r.rt.timelines[r.navbarTl.value] == Played)))
  {
    MountEstablishesInv(width, scrollY);
    var r := Run(Mount(width, scrollY), events);
    RunPreservesInv(Mount(width, scrollY), events);
    if r.mounted {
      InvBoundsLive(r);
    }
  }
}

=== FILE: optional.dfy ===
/** The optional value used wherever the source has an optional property
    (`excerpt?`, `tags?`, `date?`) or a function that may return `undefined`. */
module Optional {

  datatype Option<+T> = None | Some(value: T) {

    /** The carried value, or `default` when absent. */
    function GetOr(default: T): T {
      match this
      case Some(v) => v
      case None => default
    }
  }

  /** The set holding the carried value, empty when absent. */
  function AsSet<T>(o: Option<T>): (r: set<T>)
    ensures o.None? <==> r == {}
    ensures o.Some? ==> r == {o.value}
  {
    match o
    case None => {}
    case Some(v) => {v}
  }
}

=== FILE: seo.dfy ===
/** The head-tag builder: the ordered meta, link and script records the site
    puts in the document head, for the root page and for one blog post.
    URL resolution against the site origin and date parsing are foreign
    (WHATWG URL parser, ECMAScript `Date`) and are passed in as functions. */
module Seo {
  import opened Optional
  import opened JsString

  const SITE_URL: string := "https://ronitkedia.com"
  const SITE_NAME: string := "Ronit Kedia"
  const DEFAULT_TITLE: string := "Ronit Kedia \U{2014} Software Developer"
  const DEFAULT_DESCRIPTION: string :=
    "Use this space to describe the " + "kind of work you do, the industries "
    + "you serve, and what makes your " + "approach unique."
  const DEFAULT_KEYWORDS: seq<string> := ["portfolio", "freelance", "independent", "developer", "designer"]
  const AUTHOR: string := "your-handle"
  const CONTACT_EMAIL: string := "hello@your-domain.com"
  const SOCIAL_PROFILES: seq<string> := [
    "https://github.com/your-handle",
    "https://www.linkedin.com/in/your-profile",
    "https://www.instagram.com/your-handle"
  ]
  const OFFER_DESCRIPTION: string :=
    "Describe the services you provide, " + "the tools you work with, or the "
    + "kinds of problems you solve."
  const KEYWORD_SEPARATOR: string := ", "
  const BLOG_TITLE_SUFFIX: string := " | Portfolio Blog"
  const JSON_LD_TYPE: string := "application/ld+json"

  /** `new URL(path, SITE_URL).toString()`: the WHATWG basic URL parser. */
  type UrlResolver = string -> string

  /** `new Date(input)` followed by `toISOString()`; `None` when the time
      value is NaN. */
  type DateParser = string -> Option<string>

  /** A `<meta>` record; every attribute is optional. */
  datatype MetaTag = MetaTag(
    charSet: Option<string>,
    name: Option<string>,
    content: Option<string>,
    property: Option<string>,
    title: Option<string>)

  function CharSetMeta(charSet: string): (m: MetaTag)
    ensures KeyOf(m) == Some(CharSetKey)
  {
    MetaTag(Some(charSet), None, None, None, None)
  }

  function TitleMeta(title: string): (m: MetaTag)
    ensures KeyOf(m) == Some(TitleKey)
  {
    MetaTag(None, None, None, None, Some(title))
  }

  function NameMeta(name: string, content: string): (m: MetaTag)
    ensures KeyOf(m) == Some(NameKey(name)) && m.content == Some(content)
  {
    MetaTag(None, Some(name), Some(content), None, None)
  }

  function PropertyMeta(property: string, content: string): (m: MetaTag)
    ensures KeyOf(m) == Some(PropertyKey(property)) && m.content == Some(content)
  {
    MetaTag(None, None, Some(content), Some(property), None)
  }

  /** The attribute a meta record is keyed by, with its value: crawlers
      read `name` and `property` records differently. */
  datatype MetaKey = CharSetKey | TitleKey | NameKey(name: string) | PropertyKey(property: string)

  /** The key of a record that sets exactly one key attribute, carrying a
      `content` exactly when that attribute is `name` or `property`; `None`
      for any other shape. */
  function KeyOf(m: MetaTag): Option<MetaKey> {
    if m.charSet.Some? then
      if m.title.None? && m.name.None? && m.property.None? && m.content.None? then Some(CharSetKey) else None
    else if m.title.Some? then
      if m.name.None? && m.property.None? && m.content.None? then Some(TitleKey) else None
    else if m.content.None? then None
    else if m.name.Some? then
      if m.property.None? then Some(NameKey(m.name.value)) else None
    else if m.property.Some? then Some(PropertyKey(m.property.value))
    else None
  }

  /** A `<link>` record; `asAttr` and `typeAttr` stand for the `as` and
      `type` attributes. */
  datatype LinkTag = LinkTag(
    rel: string,
    href: string,
    asAttr: Option<string>,
    typeAttr: Option<string>,
    sizes: Option<string>,
    media: Option<string>)

  function Link(rel: string, href: string): LinkTag {
    LinkTag(rel, href, None, None, None, None)
  }

  /** Structured data carried by a script record, before `JSON.stringify`.
      `@context` is always "https://schema.org"; `@type` is the constructor
      name. An `Option` field that is `None` is a key whose value is
      `undefined`, which serialisation drops. */
  datatype JsonLd =
    | ProfessionalService(
        name: string,
        image: string,
        url: string,
        description: string,
        addressCountry: string,
        email: string,
        sameAs: seq<string>,
        offerName: string,
        offerDescription: string,
        knowsAbout: seq<string>)
    | BlogPosting(
        pageId: string,
        headline: string,
        description: string,
        image: string,
        datePublished: Option<string>,
        dateModified: Option<string>,
        authorName: string,
        publisherName: string,
        logoUrl: string,
        keywords: Option<string>)

  /** A `<script>` record; `children` is the unserialised JSON-LD. */
  datatype ScriptTag = ScriptTag(
    typeAttr: Option<string>,
    children: Option<JsonLd>,
    src: Option<string>,
    deferred: Option<bool>,
    isAsync: Option<bool>)

  function JsonLdScript(ld: JsonLd): ScriptTag {
    ScriptTag(Some(JSON_LD_TYPE), Some(ld), None, None, None)
  }

  /** What a route's `head` returns. Both builders always fill all three
      lists, so none is optional here. */
  datatype HeadTags = HeadTags(meta: seq<MetaTag>, links: seq<LinkTag>, scripts: seq<ScriptTag>)

  /** The payload a blog route hands to the builder. */
  datatype BlogSeoPayload = BlogSeoPayload(
    slug: string,
    title: string,
    excerpt: Option<string>,
    tags: Option<seq<string>>,
    date: Option<string>)

  predicate IsHttpUrl(u: string) {
    StartsWith(u, "http://") || StartsWith(u, "https://")
  }

  /** `absoluteUrl(path)`: the site origin for an empty path, an http(s) URL
      unchanged, anything else resolved against the site origin. */
  function AbsoluteUrl(path: string, resolve: UrlResolver): (r: string)
    ensures path == "" ==> r == SITE_URL
    ensures path != "" && IsHttpUrl(path) ==> r == path
    ensures path != "" && !IsHttpUrl(path) ==> r == resolve(path)
  {
    if path == "" then SITE_URL
    else if StartsWith(path, "http://") || StartsWith(path, "https://") then path
    else resolve(path)
  }

  function DefaultImage(resolve: UrlResolver): string {
    AbsoluteUrl("/og-image.jpg", resolve)
  }

  function DefaultLogo(resolve: UrlResolver): string {
    AbsoluteUrl("/favicon-96x96.png", resolve)
  }

  /** The site-wide JSON-LD for a given root URL and share image: the
      service is named with the default title and described with the
      default description, and lists the contact email and social
      profiles. */
  function DefaultJsonLd(url: string, image: string): (ld: JsonLd)
    ensures ld.ProfessionalService? && ld.url == url && ld.image == image
    ensures ld.name == DEFAULT_TITLE && ld.description == DEFAULT_DESCRIPTION
    ensures ld.email == CONTACT_EMAIL && ld.sameAs == SOCIAL_PROFILES
  {
    ProfessionalService(
      DEFAULT_TITLE,
      image,
      url,
      DEFAULT_DESCRIPTION,
      "Worldwide",
      CONTACT_EMAIL,
      SOCIAL_PROFILES,
      "Your Service Offering",
      OFFER_DESCRIPTION,
      ["Design systems", "Interface design", "Web development", "Creative coding"])
  }

  /** Keys of the nine page-description records opening the root meta. */
  const ROOT_PAGE_KEYS: seq<MetaKey> := [
    CharSetKey, NameKey("viewport"), TitleKey, NameKey("description"), NameKey("keywords"),
    NameKey("author"), NameKey("robots"), PropertyKey("og:type"), PropertyKey("og:site_name")
  ]

  /** Keys of the nine sharing records closing the root meta. */
  const ROOT_SHARE_KEYS: seq<MetaKey> := [
    PropertyKey("og:url"), PropertyKey("og:title"), PropertyKey("og:description"),
    PropertyKey("og:image"), NameKey("twitter:card"), PropertyKey("twitter:url"),
    PropertyKey("twitter:title"), PropertyKey("twitter:description"), PropertyKey("twitter:image")
  ]

  /** Keys of the 18 root meta records, in order. */
  const ROOT_META_KEYS: seq<MetaKey> := ROOT_PAGE_KEYS + ROOT_SHARE_KEYS

  /** The first nine root records: charset, viewport, the default title,
      description, keywords, author, robots, og:type and og:site_name. */
  function RootPageMeta(keywords: string): (m: seq<MetaTag>)
    ensures |m| == |ROOT_PAGE_KEYS| && m[0] == CharSetMeta("utf-8")
    ensures forall i :: 0 <= i < |m| ==> KeyOf(m[i]) == Some(ROOT_PAGE_KEYS[i])
    ensures m[2] == TitleMeta(DEFAULT_TITLE)
    ensures m[3].content == Some(DEFAULT_DESCRIPTION)
    ensures m[4] == NameMeta("keywords", keywords)
    ensures m[5].content == Some(AUTHOR) && m[8].content == Some(SITE_NAME)
    ensures m[1] == NameMeta("viewport", "width=device-width, initial-scale=1")
    ensures m[6] == NameMeta("robots", "index,follow")
    ensures m[7] == PropertyMeta("og:type", "website")
  {
    [
      CharSetMeta("utf-8"),
      NameMeta("viewport", "width=device-width, initial-scale=1"),
      TitleMeta(DEFAULT_TITLE),
      NameMeta("description", DEFAULT_DESCRIPTION),
      NameMeta("keywords", keywords),
      NameMeta("author", AUTHOR),
      NameMeta("robots", "index,follow"),
      PropertyMeta("og:type", "website"),
      PropertyMeta("og:site_name", SITE_NAME)
    ]
  }

  /** The nine Open Graph and Twitter records of the root page: the
      canonical URL, the default title and description, and the share
      image, twice each; the card type is a `name` record here. */
  function RootShareMeta(canonical: string, image: string): (m: seq<MetaTag>)
    ensures |m| == |ROOT_SHARE_KEYS|
    ensures forall i :: 0 <= i < |m| ==> KeyOf(m[i]) == Some(ROOT_SHARE_KEYS[i])
    ensures m[0] == PropertyMeta("og:url", canonical)
    ensures m[5] == PropertyMeta("twitter:url", canonical)
    ensures m[1].content == m[6].content == Some(DEFAULT_TITLE)
    ensures m[2].content == m[7].content == Some(DEFAULT_DESCRIPTION)
    ensures m[3].content == m[8].content == Some(image)
    ensures m[4] == NameMeta("twitter:card", "summary_large_image")
  {
    [
      PropertyMeta("og:url", canonical),
      PropertyMeta("og:title", DEFAULT_TITLE),
      PropertyMeta("og:description", DEFAULT_DESCRIPTION),
      PropertyMeta("og:image", image),
      NameMeta("twitter:card", "summary_large_image"),
      PropertyMeta("twitter:url", canonical),
      PropertyMeta("twitter:title", DEFAULT_TITLE),
      PropertyMeta("twitter:description", DEFAULT_DESCRIPTION),
      PropertyMeta("twitter:image", image)
    ]
  }

  /** Records keyed by `ka` followed by records keyed by `kb` are keyed by
      `ka + kb`. */
  lemma KeysOfConcat(a: seq<MetaTag>, b: seq<MetaTag>, ka: seq<MetaKey>, kb: seq<MetaKey>)
    requires |a| == |ka| && |b| == |kb|
    requires forall i :: 0 <= i < |a| ==> KeyOf(a[i]) == Some(ka[i])
    requires forall i :: 0 <= i < |b| ==> KeyOf(b[i]) == Some(kb[i])
    ensures forall i :: 0 <= i < |a + b| ==> KeyOf((a + b)[i]) == Some((ka + kb)[i])
  {
    forall i | 0 <= i < |a + b|
      ensures KeyOf((a + b)[i]) == Some((ka + kb)[i])
    {
      if i >= |a| {
        assert (a + b)[i] == b[i - |a|] && (ka + kb)[i] == kb[i - |a|];
      }
    }
  }

  /** The root page's 18 meta records for a given canonical URL, share
      image and keywords text, keyed as ROOT_META_KEYS: the charset first;
      the canonical URL as og:url and twitter:url; the default title in the
      title, og:title and twitter:title records; the default description in
      all three description records; the share image twice. */
  function RootMeta(canonical: string, image: string, keywords: string): (m: seq<MetaTag>)
    ensures |m| == |ROOT_META_KEYS| == 18 && m[0] == CharSetMeta("utf-8")
    ensures forall i :: 0 <= i < |m| ==> KeyOf(m[i]) == Some(ROOT_META_KEYS[i])
    ensures m[9] == PropertyMeta("og:url", canonical)
    ensures m[14] == PropertyMeta("twitter:url", canonical)
    ensures m[2] == TitleMeta(DEFAULT_TITLE)
    ensures m[10].content == m[15].content == Some(DEFAULT_TITLE)
    ensures m[3].content == m[11].content == m[16].content == Some(DEFAULT_DESCRIPTION)
    ensures m[4] == NameMeta("keywords", keywords)
    ensures m[12].content == m[17].content == Some(image)
    ensures m[5].content == Some(AUTHOR) && m[8].content == Some(SITE_NAME)
    ensures m[13] == NameMeta("twitter:card", "summary_large_image")
    ensures m[1] == NameMeta("viewport", "width=device-width, initial-scale=1")
    ensures m[6] == NameMeta("robots", "index,follow")
    ensures m[7] == PropertyMeta("og:type", "website")
  {
    var page := RootPageMeta(keywords);
    var share := RootShareMeta(canonical, image);
    KeysOfConcat(page, share, ROOT_PAGE_KEYS, ROOT_SHARE_KEYS);
    page + share
  }

  /** The root page's links: canonical first, then the icons and manifest. */
  function RootLinks(canonical: string): (l: seq<LinkTag>)
    ensures |l| == 5 && l[0] == Link("canonical", canonical)
    ensures forall i :: 1 <= i < 5 ==> l[i].rel != "canonical"
  {
    [
      Link("canonical", canonical),
      Link("icon", "/favicon.ico"),
      LinkTag("icon", "/favicon-96x96.png", None, None, Some("96x96"), None),
      Link("apple-touch-icon", "/apple-touch-icon.png"),
      Link("manifest", "/site.webmanifest")
    ]
  }

  /** `getRootSeo()`: the root meta records, five links opening with the
      only canonical one, and the site's JSON-LD. The canonical URL is the
      resolved root path, and the same string is og:url, twitter:url and the
      JSON-LD `url`. */
  function GetRootSeo(resolve: UrlResolver): (r: HeadTags)
    ensures |r.meta| == 18 && r.meta[0] == CharSetMeta("utf-8")
    ensures |r.links| == 5 && r.links[0] == Link("canonical", resolve("/"))
    ensures forall i :: 1 <= i < |r.links| ==> r.links[i].rel != "canonical"
    ensures r.meta[9] == PropertyMeta("og:url", r.links[0].href)
    ensures r.meta[14] == PropertyMeta("twitter:url", r.links[0].href)
    ensures |r.scripts| == 1 && r.scripts[0].typeAttr == Some(JSON_LD_TYPE)
    ensures r.scripts[0].children == Some(DefaultJsonLd(r.links[0].href, DefaultImage(resolve)))
    ensures r.scripts[0].children.value.url == r.links[0].href
    ensures r.meta == RootMeta(r.links[0].href, DefaultImage(resolve), Join(DEFAULT_KEYWORDS, KEYWORD_SEPARATOR))
  {
    var canonical := AbsoluteUrl("/", resolve);
    HeadTags(RootMeta(canonical, DefaultImage(resolve), Join(DEFAULT_KEYWORDS, KEYWORD_SEPARATOR)), RootLinks(canonical), [JsonLdScript(DefaultJsonLd(canonical, DefaultImage(resolve)))])
  }

  /** `getIsoDate(input)`: nothing for a missing or empty input, otherwise
      whatever the date parser makes of it. */
  function GetIsoDate(input: Option<string>, parse: DateParser): (r: Option<string>)
    ensures r.Some? ==> input.Some? && input.value != "" && parse(input.value) == r
    ensures input.Some? && input.value != "" && parse(input.value).Some? ==> r.Some?
  {
    match input
    case None => None
    case Some(s) => if s == "" then None else parse(s)
  }

  /** `post.excerpt?.trim() || DEFAULT_DESCRIPTION`: the trimmed excerpt when
      it has any non-white-space character, otherwise the default. Either
      way the description is non-empty with no white space at either end. */
  function BlogDescription(excerpt: Option<string>): (d: string)
    ensures excerpt.Some? && !IsBlank(excerpt.value) ==> d == Trim(excerpt.value)
    ensures excerpt.None? || IsBlank(excerpt.value) ==> d == DEFAULT_DESCRIPTION
    ensures d != [] && !IsWhiteSpace(d[0]) && !IsWhiteSpace(d[|d| - 1])
  {
    assert DEFAULT_DESCRIPTION[0] == 'U';
    assert DEFAULT_DESCRIPTION[|DEFAULT_DESCRIPTION| - 1] == '.';
    match excerpt
    case None => DEFAULT_DESCRIPTION
    case Some(e) =>
      var t := Trim(e);
      if t != "" then t else DEFAULT_DESCRIPTION
  }

  /** The tags array, or the empty array when it is missing. */
  function TagsOf(post: BlogSeoPayload): seq<string> {
    post.tags.GetOr([])
  }

  /** The tags array is present and has at least one element (blank ones
      included): the condition both keyword fields test. */
  predicate HasTags(post: BlogSeoPayload) {
    post.tags.Some? && |post.tags.value| > 0
  }

  /** The keywords meta content: every tag joined with ", " when there is at
      least one, otherwise the default keywords joined the same way. */
  function BlogKeywords(post: BlogSeoPayload): (k: string)
    ensures HasTags(post) ==> k == Join(post.tags.value, KEYWORD_SEPARATOR)
    ensures !HasTags(post) ==> k == Join(DEFAULT_KEYWORDS, KEYWORD_SEPARATOR)
    ensures HasTags(post) ==> post.tags.value[0] <= k
  {
    if HasTags(post) then
      JoinEnds(post.tags.value, KEYWORD_SEPARATOR);
      Join(post.tags.value, KEYWORD_SEPARATOR)
    else Join(DEFAULT_KEYWORDS, KEYWORD_SEPARATOR)
  }

  /** `if (isoDate)`: a present, non-empty ISO string. */
  predicate IsDated(iso: Option<string>) {
    iso.Some? && iso.value != ""
  }

  /** The published/modified pair, present only for a dated post. */
  function DateEntries(iso: Option<string>): (r: seq<MetaTag>)
    ensures IsDated(iso) ==>
      |r| == 2 && r[0] == PropertyMeta("article:published_time", iso.value) &&
      r[1] == PropertyMeta("article:modified_time", iso.value)
    ensures !IsDated(iso) ==> r == []
  {
    if IsDated(iso) then
      [PropertyMeta("article:published_time", iso.value),
       PropertyMeta("article:modified_time", iso.value)]
    else []
  }

  /** `tag && tag.trim().length > 0`. */
  predicate KeepsTag(tag: string) {
    tag != "" && |Trim(tag)| > 0
  }

  /** One `article:tag` entry per tag that has a non-white-space character,
      in input order, carrying the untrimmed tag. */
  function TagEntries(tags: seq<string>): (r: seq<MetaTag>)
    ensures |r| <= |tags|
    ensures forall i :: 0 <= i < |r| ==>
      r[i].property == Some("article:tag") && r[i].content.Some? && !IsBlank(r[i].content.value)
  {
    if tags == [] then []
    else
      var head := if KeepsTag(tags[0]) then [PropertyMeta("article:tag", tags[0])] else [];
      head + TagEntries(tags[1..])
  }

  function BlogCanonical(slug: string, resolve: UrlResolver): string {
    AbsoluteUrl("/blog/" + slug, resolve)
  }

  /** Keys of the 15 records every blog page opens with, in order. */
  const BLOG_HEADER_KEYS: seq<MetaKey> := [
    TitleKey, NameKey("description"), NameKey("author"), NameKey("keywords"),
    PropertyKey("og:type"), PropertyKey("og:site_name"), PropertyKey("og:url"),
    PropertyKey("og:title"), PropertyKey("og:description"), PropertyKey("og:image"),
    PropertyKey("twitter:card"), PropertyKey("twitter:url"), PropertyKey("twitter:title"),
    PropertyKey("twitter:description"), PropertyKey("twitter:image")
  ]

  /** The 15 records every blog page opens with, keyed as BLOG_HEADER_KEYS:
      the suffixed page title, one description value in all three
      description records, the keywords, the canonical URL as og:url and
      twitter:url, the raw title as og:title and twitter:title. */
  function BlogHeader(title: string, description: string, keywords: string,
                      canonical: string, image: string): (h: seq<MetaTag>)
    ensures |h| == |BLOG_HEADER_KEYS|
    ensures forall i :: 0 <= i < |h| ==> KeyOf(h[i]) == Some(BLOG_HEADER_KEYS[i])
    ensures h[0] == TitleMeta(title + BLOG_TITLE_SUFFIX)
    ensures h[1].content == h[8].content == h[13].content == Some(description)
    ensures h[3].content == Some(keywords)
    ensures h[6].content == h[11].content == Some(canonical)
    ensures h[7].content == h[12].content == Some(title)
    ensures h[9].content == h[14].content == Some(image)
    ensures h[2].content == Some(AUTHOR) && h[5].content == Some(SITE_NAME)
    ensures h[4] == PropertyMeta("og:type", "article")
    ensures h[10] == PropertyMeta("twitter:card", "summary_large_image")
  {
    [
      TitleMeta(title + BLOG_TITLE_SUFFIX),
      NameMeta("description", description),
      NameMeta("author", AUTHOR),
      NameMeta("keywords", keywords),
      PropertyMeta("og:type", "article"),
      PropertyMeta("og:site_name", SITE_NAME),
      PropertyMeta("og:url", canonical),
      PropertyMeta("og:title", title),
      PropertyMeta("og:description", description),
      PropertyMeta("og:image", image),
      PropertyMeta("twitter:card", "summary_large_image"),
      PropertyMeta("twitter:url", canonical),
      PropertyMeta("twitter:title", title),
      PropertyMeta("twitter:description", description),
      PropertyMeta("twitter:image", image)
    ]
  }

  /** The BlogPosting JSON-LD; its keywords are the joined tags, or absent
      (not defaulted) when there are none. */
  function BlogJsonLd(post: BlogSeoPayload, canonical: string, description: string,
                      iso: Option<string>, image: string, logo: string): (ld: JsonLd)
    ensures ld.BlogPosting? && ld.pageId == canonical && ld.headline == post.title
    ensures ld.description == description
    ensures ld.datePublished == ld.dateModified == iso
    ensures HasTags(post) <==> ld.keywords.Some?
    ensures HasTags(post) ==> ld.keywords == Some(BlogKeywords(post))
    ensures ld.image == image && ld.logoUrl == logo
    ensures ld.authorName == AUTHOR && ld.publisherName == SITE_NAME
  {
    BlogPosting(
      canonical,
      post.title,
      description,
      image,
      iso,
      iso,
      AUTHOR,
      SITE_NAME,
      logo,
      if HasTags(post) then Some(Join(post.tags.value, KEYWORD_SEPARATOR)) else None)
  }

  /** Blog meta layout: the header, then the date pair when dated, then the
      tag entries. */
  function BlogMeta(header: seq<MetaTag>, iso: Option<string>, tags: seq<string>): (m: seq<MetaTag>)
    ensures |m| == |header| + |DateEntries(iso)| + |TagEntries(tags)|
    ensures m[..|header|] == header
    ensures IsDated(iso) ==>
      m[|header|] == PropertyMeta("article:published_time", iso.value) &&
      m[|header| + 1] == PropertyMeta("article:modified_time", iso.value)
    ensures m[|header| + |DateEntries(iso)|..] == TagEntries(tags)
  {
    var m := header + DateEntries(iso) + TagEntries(tags);
    assert m[..|header|] == header;
    assert m[|header| + |DateEntries(iso)|..] == TagEntries(tags);
    m
  }

  /** `getBlogPostSeo(post)`.
      Meta: the 15 header records, then the published/modified pair exactly
      when the date parses, then the `article:tag` entries. One canonical
      URL, the resolved "/blog/<slug>", is the only link and also og:url and
      twitter:url. The single script is the BlogPosting JSON-LD, sharing the
      canonical URL, title, description and keywords with the meta records. */
  function GetBlogPostSeo(post: BlogSeoPayload, resolve: UrlResolver, parse: DateParser): (r: HeadTags)
    ensures
      var iso := GetIsoDate(post.date, parse);
      var dates := if IsDated(iso) then 2 else 0;
      && |r.meta| == 15 + dates + |TagEntries(TagsOf(post))|
      && (IsDated(iso) ==>
            r.meta[15] == PropertyMeta("article:published_time", iso.value) &&
            r.meta[16] == PropertyMeta("article:modified_time", iso.value))
      && r.meta[15 + dates..] == TagEntries(TagsOf(post))
    ensures r.links == [Link("canonical", resolve("/blog/" + post.slug))]
    ensures r.meta[..15] == BlogHeader(post.title, BlogDescription(post.excerpt), BlogKeywords(post),
                                       r.links[0].href, DefaultImage(resolve))
    ensures r.scripts == [JsonLdScript(BlogJsonLd(post, r.links[0].href, BlogDescription(post.excerpt),
                                                  GetIsoDate(post.date, parse), DefaultImage(resolve),
                                                  DefaultLogo(resolve)))]
  {
    var canonical := BlogCanonical(post.slug, resolve);
    assert ("/blog/" + post.slug)[0] == '/';
    var description := BlogDescription(post.excerpt);
    var iso := GetIsoDate(post.date, parse);
    var image := DefaultImage(resolve);
    var header := BlogHeader(post.title, description, BlogKeywords(post), canonical, image);
    HeadTags(
      BlogMeta(header, iso, TagsOf(post)),
      [Link("canonical", canonical)],
      [JsonLdScript(BlogJsonLd(post, canonical, description, iso, image, DefaultLogo(resolve)))])
  }
}

=== FILE: seo_properties.dfy ===
/** Properties of the head-tag builder that relate several calls or hold
    for every payload. */
module SeoProperties {
  import opened Optional
  import opened JsString
  import opened Seo

  // ---------------------------------------------------------------------
  // Absolute URLs
  // ---------------------------------------------------------------------

  /** A path rooted at the site: it starts with '/'. Every path the module
      itself makes absolute ("/", "/og-image.jpg", "/favicon-96x96.png",
      "/blog/<slug>") is one. */
  predicate IsRootedPath(path: string) {
    path != "" && path[0] == '/'
  }

  /** The resolver turns rooted paths into http(s) URLs, as the WHATWG
      parser does for such a path against the https site base (the
      result keeps the base's scheme). Other inputs are unconstrained. */
  ghost predicate ResolvesRootedToHttp(resolve: UrlResolver) {
    forall p :: IsRootedPath(p) ==> IsHttpUrl(resolve(p))
  }

  /** For the empty path, a rooted path or an http(s) URL the result is an
      http(s) URL, so making it absolute a second time changes nothing. */
  lemma AbsoluteUrlIdempotent(path: string, resolve: UrlResolver)
    requires ResolvesRootedToHttp(resolve)
    requires path == "" || IsRootedPath(path) || IsHttpUrl(path)
    ensures IsHttpUrl(AbsoluteUrl(path, resolve))
    ensures AbsoluteUrl(AbsoluteUrl(path, resolve), resolve) == AbsoluteUrl(path, resolve)
  {
    SiteUrlIsHttp();
    if IsRootedPath(path) {
      RootedIsNotHttp(path);
    }
  }

  /** The site URL is an https URL. */
  lemma SiteUrlIsHttp()
    ensures SITE_URL != "" && IsHttpUrl(SITE_URL)
  {
    assert SITE_URL[..8] == "https://";
    StartsWithIsPrefix(SITE_URL, "https://");
  }

  /** A rooted path does not start with a scheme. */
  lemma RootedIsNotHttp(path: string)
    requires IsRootedPath(path)
    ensures !IsHttpUrl(path)
  {
    assert path[0] != 'h';
  }

  /** Appending to an http(s) URL keeps it one. */
  lemma HttpUrlExtends(u: string, tail: string)
    requires IsHttpUrl(u)
    ensures IsHttpUrl(u + tail)
  {
    StartsWithIsPrefix(u, "http://");
    StartsWithIsPrefix(u, "https://");
    StartsWithIsPrefix(u + tail, "http://");
    StartsWithIsPrefix(u + tail, "https://");
  }

  /** A resolver that appends rooted paths to the site URL and leaves every
      other string alone, as the WHATWG parser does with "mailto:a@b". */
  function SiteResolver(p: string): string {
    if IsRootedPath(p) then SITE_URL + p else p
  }

  /** The hypothesis admits resolvers that leave absolute non-http URLs
      alone, so it does not exclude the WHATWG parser. */
  lemma RootedHypothesisAdmitsOtherSchemes()
    ensures ResolvesRootedToHttp(SiteResolver)
    ensures SiteResolver("mailto:a@b") == "mailto:a@b"
  {
    SiteUrlIsHttp();
    forall p | IsRootedPath(p)
      ensures IsHttpUrl(SiteResolver(p))
    {
      HttpUrlExtends(SITE_URL, p);
    }
  }

  /** Every URL the blog page makes absolute is an http(s) URL under such a
      resolver: the canonical URL, the share image and the logo. */
  lemma BlogUrlsAreHttp(post: BlogSeoPayload, resolve: UrlResolver)
    requires ResolvesRootedToHttp(resolve)
    ensures IsHttpUrl(BlogCanonical(post.slug, resolve))
    ensures IsHttpUrl(DefaultImage(resolve)) && IsHttpUrl(DefaultLogo(resolve))
  {
    assert IsRootedPath("/blog/" + post.slug) by {
      assert ("/blog/" + post.slug)[0] == '/';
    }
    AbsoluteUrlIdempotent("/blog/" + post.slug, resolve);
    assert IsRootedPath("/og-image.jpg");
    AbsoluteUrlIdempotent("/og-image.jpg", resolve);
    assert IsRootedPath("/favicon-96x96.png");
    AbsoluteUrlIdempotent("/favicon-96x96.png", resolve);
  }

  // ---------------------------------------------------------------------
  // Description
  // ---------------------------------------------------------------------

  /** White space around an excerpt never reaches the description. */
  lemma DescriptionIgnoresPadding(pre: string, e: string, post: string)
    requires IsBlank(pre) && IsBlank(post)
    ensures BlogDescription(Some(pre + e + post)) == BlogDescription(Some(e))
  {
    TrimIgnoresPadding(pre, e, post);
  }

  // ---------------------------------------------------------------------
  // Record keys
  // ---------------------------------------------------------------------

  /** A record's key determines its shape: the builders produce exactly the
      records with their key, so a record whose key is `NameKey(n)` is the
      `name` record for `n` and its content, and likewise for the others. */
  lemma KeyDeterminesRecord(m: MetaTag)
    ensures KeyOf(m) == Some(CharSetKey) <==> m.charSet.Some? && m == CharSetMeta(m.charSet.value)
    ensures KeyOf(m) == Some(TitleKey) <==> m.title.Some? && m == TitleMeta(m.title.value)
    ensures forall n :: KeyOf(m) == Some(NameKey(n)) <==> m.content.Some? && m == NameMeta(n, m.content.value)
    ensures forall p :: KeyOf(m) == Some(PropertyKey(p)) <==> m.content.Some? && m == PropertyMeta(p, m.content.value)
  {
  }

  // ---------------------------------------------------------------------
  // Tags
  // ---------------------------------------------------------------------

  /** `tag && tag.trim().length > 0` keeps exactly the non-blank tags. */
  lemma KeepsTagIffNotBlank(tag: string)
    ensures KeepsTag(tag) <==> !IsBlank(tag)
  {
  }

  /** Tag filtering distributes over concatenation: the entries keep the
      input order. */
  lemma {:induction false} TagEntriesAppend(a: seq<string>, b: seq<string>)
    ensures TagEntries(a + b) == TagEntries(a) + TagEntries(b)
    decreases |a|
  {
    if a == [] {
      assert a + b == b;
    } else {
      var ab := a + b;
      assert ab[0] == a[0];
      assert ab[1..] == a[1..] + b;
      var head := if KeepsTag(a[0]) then [PropertyMeta("article:tag", a[0])] else [];
      TagEntriesAppend(a[1..], b);
      calc {
        TagEntries(ab);
        head + TagEntries(a[1..] + b);
        head + (TagEntries(a[1..]) + TagEntries(b));
        (head + TagEntries(a[1..])) + TagEntries(b);
        TagEntries(a) + TagEntries(b);
      }
    }
  }

  /** A tag has an entry exactly when it is one of the tags and is not
      blank; the entry carries the tag untrimmed. */
  lemma {:induction false} TagEntriesMembership(tags: seq<string>, t: string)
    ensures PropertyMeta("article:tag", t) in TagEntries(tags) <==> t in tags && !IsBlank(t)
    decreases |tags|
  {
    if tags != [] {
      KeepsTagIffNotBlank(tags[0]);
      TagEntriesMembership(tags[1..], t);
      assert t in tags <==> t == tags[0] || t in tags[1..];
    }
  }

  /** Positions of the non-blank tags. */
  ghost function NonBlankIndices(tags: seq<string>): set<int> {
    set i | 0 <= i < |tags| && !IsBlank(tags[i])
  }

  /** Appending a tag adds its position exactly when it is not blank. */
  lemma NonBlankIndicesSnoc(init: seq<string>, last: string)
    ensures NonBlankIndices(init + [last]) ==
      NonBlankIndices(init) + (if IsBlank(last) then {} else {|init|})
    ensures |NonBlankIndices(init + [last])| ==
      |NonBlankIndices(init)| + (if IsBlank(last) then 0 else 1)
  {
    var tags := init + [last];
    assert forall i :: 0 <= i < |init| ==> tags[i] == init[i];
    assert NonBlankIndices(tags) == NonBlankIndices(init) + (if IsBlank(last) then {} else {|init|});
  }

  /** A single tag has one entry when it is not blank and none when it is. */
  lemma TagEntriesSingle(t: string)
    ensures |TagEntries([t])| == if IsBlank(t) then 0 else 1
  {
    KeepsTagIffNotBlank(t);
    assert [t][1..] == [];
  }

  /** There is exactly one tag entry per non-blank tag, duplicates
      included. */
  lemma {:induction false} TagEntriesCount(tags: seq<string>)
    ensures |TagEntries(tags)| == |NonBlankIndices(tags)|
    decreases |tags|
  {
    if tags != [] {
      var init := tags[..|tags| - 1];
      var last := tags[|tags| - 1];
      assert tags == init + [last];
      TagEntriesAppend(init, [last]);
      TagEntriesCount(init);
      TagEntriesSingle(last);
      NonBlankIndicesSnoc(init, last);
    }
  }

  /** A blog page has the 15 header records, two date records when the date
      parses, and one record per non-blank tag. */
  lemma BlogMetaCount(post: BlogSeoPayload, resolve: UrlResolver, parse: DateParser)
    ensures |GetBlogPostSeo(post, resolve, parse).meta| ==
      15 + (if IsDated(GetIsoDate(post.date, parse)) then 2 else 0) + |NonBlankIndices(TagsOf(post))|
  {
    TagEntriesCount(TagsOf(post));
  }

  /** No tag entry at all exactly when every tag is blank. */
  lemma {:induction false} TagEntriesEmptyIff(tags: seq<string>)
    ensures TagEntries(tags) == [] <==> forall i :: 0 <= i < |tags| ==> IsBlank(tags[i])
    decreases |tags|
  {
    if tags != [] {
      KeepsTagIffNotBlank(tags[0]);
      TagEntriesEmptyIff(tags[1..]);
      assert forall i :: 1 <= i < |tags| ==> tags[i] == tags[1..][i - 1];
    }
  }

  /** A blank tag appended to a tagged post still lands in the keywords
      (after one more separator) but adds no `article:tag` entry. */
  lemma BlankTagInKeywordsOnly(post: BlogSeoPayload, t: string)
    requires HasTags(post) && IsBlank(t)
    ensures
      var more := post.(tags := Some(post.tags.value + [t]));
      && BlogKeywords(more) == BlogKeywords(post) + KEYWORD_SEPARATOR + t
      && TagEntries(TagsOf(more)) == TagEntries(TagsOf(post))
  {
    var more := post.(tags := Some(post.tags.value + [t]));
    assert HasTags(more);
    JoinSnoc(post.tags.value, t, KEYWORD_SEPARATOR);
    TagEntriesAppend(post.tags.value, [t]);
    KeepsTagIffNotBlank(t);
    assert TagEntries([t]) == [];
  }

  // ---------------------------------------------------------------------
  // Dates
  // ---------------------------------------------------------------------

  /** Some meta record has property `p`. */
  predicate HasProperty(meta: seq<MetaTag>, p: string) {
    exists i :: 0 <= i < |meta| && meta[i].property == Some(p)
  }

  /** The input parses to a non-empty ISO string. */
  predicate DateParses(post: BlogSeoPayload, parse: DateParser) {
    post.date.Some? && post.date.value != "" &&
    parse(post.date.value).Some? && parse(post.date.value).value != ""
  }

  /** No record of the blog header is a date or tag record. */
  lemma BlogHeaderHasNoDate(title: string, description: string, keywords: string,
                            canonical: string, image: string)
    ensures forall i :: 0 <= i < 15 ==>
      BlogHeader(title, description, keywords, canonical, image)[i].property != Some("article:published_time")
  {
  }

  /** Header and tag records together carry no publication time. */
  lemma NoPublishedTimeWithoutDates(header: seq<MetaTag>, tags: seq<MetaTag>)
    requires forall i :: 0 <= i < |header| ==> header[i].property != Some("article:published_time")
    requires forall i :: 0 <= i < |tags| ==> tags[i].property == Some("article:tag")
    ensures !HasProperty(header + tags, "article:published_time")
  {
    var m := header + tags;
    forall i | 0 <= i < |m|
      ensures m[i].property != Some("article:published_time")
    {
      if i >= |header| {
        assert m[i] == tags[i - |header|];
      }
    }
  }

  /** The meta half of PublishedTimeIffDateParses. */
  lemma PublishedTimeMetaIff(post: BlogSeoPayload, resolve: UrlResolver, parse: DateParser)
    ensures HasProperty(GetBlogPostSeo(post, resolve, parse).meta, "article:published_time")
            <==> DateParses(post, parse)
  {
    var r := GetBlogPostSeo(post, resolve, parse);
    var iso := GetIsoDate(post.date, parse);
    assert IsDated(iso) <==> DateParses(post, parse);
    if IsDated(iso) {
      assert r.meta[15].property == Some("article:published_time");
    } else {
      var header := r.meta[..15];
      BlogHeaderHasNoDate(post.title, BlogDescription(post.excerpt), BlogKeywords(post),
                          r.links[0].href, DefaultImage(resolve));
      assert r.meta == header + r.meta[15..];
      NoPublishedTimeWithoutDates(header, r.meta[15..]);
    }
  }

  /** `article:published_time` appears in a blog page exactly when the date
      parses; the JSON-LD carries the date under the same condition. */
  lemma PublishedTimeIffDateParses(post: BlogSeoPayload, resolve: UrlResolver, parse: DateParser)
    ensures HasProperty(GetBlogPostSeo(post, resolve, parse).meta, "article:published_time")
            <==> DateParses(post, parse)
    ensures GetBlogPostSeo(post, resolve, parse).scripts[0].children.value.datePublished.Some?
            <==> post.date.Some? && post.date.value != "" && parse(post.date.value).Some?
  {
    PublishedTimeMetaIff(post, resolve, parse);
  }

  // ---------------------------------------------------------------------
  // Shared values
  // ---------------------------------------------------------------------

  /** One canonical URL is reused: the only link, og:url, twitter:url and
      the JSON-LD @id all carry the resolved "/blog/<slug>"; and one
      description fills all three description records and the JSON-LD. */
  lemma BlogValuesAgree(post: BlogSeoPayload, resolve: UrlResolver, parse: DateParser)
    ensures
      var r := GetBlogPostSeo(post, resolve, parse);
      var url := AbsoluteUrl("/blog/" + post.slug, resolve);
      var d := BlogDescription(post.excerpt);
      && r.links == [Link("canonical", url)]
      && r.meta[6] == PropertyMeta("og:url", url)
      && r.meta[11] == PropertyMeta("twitter:url", url)
      && r.scripts[0].children.value.pageId == url
      && r.meta[1].content == r.meta[8].content == r.meta[13].content == Some(d)
      && r.scripts[0].children.value.description == d
  {
    var r := GetBlogPostSeo(post, resolve, parse);
    assert ("/blog/" + post.slug)[0] == '/';
    assert r.meta[..15][6] == r.meta[6] && r.meta[..15][11] == r.meta[11];
    assert r.meta[..15][1] == r.meta[1] && r.meta[..15][8] == r.meta[8] && r.meta[..15][13] == r.meta[13];
  }
}
